=== FILE: README.md ===
# MusicPad audio and persistence core, modelled in Dafny

MusicPad is a browser sample pad. The user loads audio files onto pads and
triggers them. Its core is four services:

- `audioSystem.ts` is the newer playback engine. It has one `AudioContext`, a
  master gain fixed at 0.7 on start-up, and one voice per pad (a source node
  plus a pad gain). Both gains are clamped into [0, 1]. The methods `initialize`,
  `loadAudioFile`, `play` and `stop` catch host errors and turn them into
  `false`/`null` results; `stopAll` returns nothing and swallows the error of
  each `stop()`. `setMasterVolume` and `dispose` (with its
  `context.close()`) make their host calls outside any `try`.
- `AudioService.ts` is the older engine. It adds an `unlock` step for mobile
  browsers and clamps nothing.
- `StorageService.ts` keeps the uploaded samples in IndexedDB. Pads can be
  exported as a "bank": a version-2.0.0 document whose bytes are base64 text.
  They are imported back the same way.
- `backupSystem.ts` keeps the last five "working versions" in localStorage,
  newest first.

The model follows the form of the code.

- **Engines.** Each engine is a class whose fields are the service's fields
  (`context`, gain, `activeSources`, `isInitialized`). The host's audio nodes
  are not modelled as objects. Each source node is a number (`nextSource`
  hands out a fresh one), and the set `stopCalled` records the nodes whose
  `stop()` was called. Each state-changing method is proved equal to a
  pure step function over a state value; the queries (`loadAudioFile`,
  `isPlaying`, `getStatus`, `isUnlocked`) are specified directly. Each step function's contract says what the operation
  does and that it keeps the engine invariant:
  - an initialised engine has a context;
  - a context exists exactly when a master gain does;
  - gains are in [0, 1] in the newer engine;
  - source nodes are distinct per pad and already allocated.

  The lemmas then relate several operations: replay, dispose twice, and the
  end events.
- **Storage.** The storage service is a class over the `samples`, `settings`
  and `banks` tables. A loop in `getStorageInfo` sums the sizes, a loop in
  `exportBank` builds the entries, and a loop in `importBank` saves entries in
  order. Each loop is proved against a specification function. Base64 is
  modelled in its own module:
  - `btoa` is section 4 of RFC 4648 with padding.
  - `atob` is the "forgiving-base64 decode" of the WHATWG Infra standard. It
    drops ASCII whitespace and strips one or two `=` when the length is a
    multiple of four. It rejects a length of 1 mod 4 and any character outside
    the alphabet, and discards leftover bits.

  The model proves `atob(btoa(s)) == s` for every byte string, and from that
  proves that importing an export restores every pad.
- **Backups.** The backup service is a class over the content of its one
  localStorage key. That content is absent, a parsed list, or text that does
  not parse.

Host events and failures are parameters of the methods:
- the host's context state;
- whether `new AudioContext()`, `resume()`, the silent buffer played after
  it, `start()`, `stop()` or `localStorage.setItem` throws;
- the decoded buffer;
- the clock readings.

Source `label` fields are called `name` (samples) and `title` (backups),
because `label` is a Dafny keyword.

Files:
- `common.dfy`: `Option`, the clamp, context states, buffers.
- `audio_system.dfy`: module `AudioEngine`.
- `audio_service.dfy`: module `LegacyAudio`.
- `base64.dfy`: module `Base64`.
- `storage_service.dfy`: module `Storage`.
- `backup_system.dfy`: module `Backups`.

## Model

| member | source | states |
|---|---|---|
| Common.Clamp | src/services/audioSystem.ts:106 | `Math.max(lo, Math.min(hi, v))` lies in [lo, hi], is `v` inside the range, and is the violated bound outside it |
| Common.Clamp01 | src/services/audioSystem.ts:173 | the gain clamp yields a value in [0, 1] and leaves in-range volumes unchanged |
| AudioEngine.InitStep | src/services/audioSystem.ts:16-44 | the result is true exactly when the engine was already initialised with a context, or when the context was created and a suspended one resumed; an initialised engine is left alone; on success the master gain is 0.7 and the context is not suspended; a failed construction keeps the old context; the voices are untouched; the invariant is kept |
| AudioEngine.AudioSystem.Initialize | src/services/audioSystem.ts:16-44 | the new fields and the result are those of `InitStep` on the old fields, and the invariant holds |
| AudioEngine.AcceptsUpload | src/services/audioSystem.ts:54-64 | a file passes the checks exactly when its MIME type starts with `audio/` and its size is at most 52428800 bytes (50 MiB) |
| AudioEngine.Playable | src/services/audioSystem.ts:76 | an accepted buffer has at least one channel, and a buffer of duration 0 or less is refused |
| AudioEngine.AudioSystem.LoadAudioFile | src/services/audioSystem.ts:47-87 | a buffer comes back exactly when there is a context, the MIME type starts with `audio/`, the size is at most 50 MiB, decoding succeeded, and the buffer has positive duration and at least one channel; that buffer is the decoded one; a file failing the context, type or size check gives null whatever decoding would give |
| AudioEngine.StopStep | src/services/audioSystem.ts:136-153 | the pad has no entry afterwards; the result is true exactly when a voice was there and `stop()` did not throw; that voice's node was told to stop; other pads, the context and the gain are unchanged; the invariant is kept |
| AudioEngine.AudioSystem.Stop | src/services/audioSystem.ts:136-153 | the new fields and the result are those of `StopStep` |
| AudioEngine.PlayStep | src/services/audioSystem.ts:90-133 | without a context, master gain or buffer nothing changes and the result is false; otherwise the pad's old voice was told to stop, the pad holds a new voice (fresh node, the buffer, gain `clamp(volume, 0, 1)`, the start time), the result is true exactly when `start()` did not throw (the entry stays either way); the only node told to stop is the pad's old one, so other pads' voices are unchanged and none of them is stopped; the invariant is kept |
| AudioEngine.AudioSystem.Play | src/services/audioSystem.ts:90-133 | the new fields and the result are those of `PlayStep` |
| AudioEngine.StopAllStep | src/services/audioSystem.ts:156-168 | the map is empty, the nodes told to stop are exactly the old ones plus every voice's node, and the context, gain and flag are unchanged |
| AudioEngine.AudioSystem.StopAll | src/services/audioSystem.ts:156-168 | the loop over the pads reaches the state of `StopAllStep` |
| AudioEngine.SetVolumeStep | src/services/audioSystem.ts:171-176 | with a master gain it becomes `clamp(v, 0, 1)` and stays in [0, 1]; without one nothing changes; nothing else changes |
| AudioEngine.AudioSystem.SetMasterVolume | src/services/audioSystem.ts:171-176 | the new fields are those of `SetVolumeStep` |
| AudioEngine.AudioSystem.IsPlaying | src/services/audioSystem.ts:179-181 | true exactly when the pad has an entry |
| AudioEngine.DisposeStep | src/services/audioSystem.ts:184-195 | no voices, no context, no master gain, not initialised; the nodes told to stop are exactly the old ones plus every voice's node |
| AudioEngine.AudioSystem.Dispose | src/services/audioSystem.ts:184-195 | the new fields are those of `DisposeStep` |
| AudioEngine.DisposeIdempotent | src/services/audioSystem.ts:184-195 | disposing twice gives the same state as disposing once |
| AudioEngine.StatusOf | src/services/audioSystem.ts:198-204 | `playing` is the number of entries, `initialized` is the flag, and the state reads `uninitialized` exactly when there is no context and is the context's state name when there is one |
| AudioEngine.AudioSystem.GetStatus | src/services/audioSystem.ts:198-204 | the status fields are the flag, the number of entries and the context's state text |
| AudioEngine.DisposedStatus | src/services/audioSystem.ts:184-204 | after `dispose` the status is (false, 0, `uninitialized`), also after a second `dispose` |
| AudioEngine.ReplayKeepsOneVoice | src/services/audioSystem.ts:97-117 | playing a pad twice leaves exactly the second voice on it, the first told to stop, and the number of entries unchanged by the second play |
| AudioEngine.EndedAsWritten | src/services/audioSystem.ts:120-123 | the registered handler removes the pad's entry whatever voice it holds |
| AudioEngine.StaleEndDropsNewerVoice | src/services/audioSystem.ts:98-123 | after a replay, the replaced voice's end event removes the newer voice's entry although the newer node was never told to stop, and `stop` then reports nothing to stop |
| AudioEngine.EndedStep | src/services/audioSystem.ts:120-123 | the guarded handler removes the entry only while it still holds the ending node; otherwise nothing changes; the invariant is kept |
| AudioEngine.StaleEndKeepsNewerVoice | src/services/audioSystem.ts:98-123 | with the guarded handler the replaced voice's end event leaves the state unchanged, while the newer voice's own end event removes it |
| AudioEngine.AudioSystem.OnEnded | src/services/audioSystem.ts:120-123 | the new fields are those of the guarded `EndedStep` |
| LegacyAudio.InitStep | src/services/AudioService.ts:8-14 | with a context nothing changes; otherwise the host's context and a master gain of 1 are installed |
| LegacyAudio.AudioService.Init | src/services/AudioService.ts:8-14 | the new fields are those of `InitStep` |
| LegacyAudio.InitIdempotent | src/services/AudioService.ts:8-9 | a second `init` changes nothing, whatever the host would report |
| LegacyAudio.UnlockStep | src/services/AudioService.ts:16-35 | a context exists afterwards; the result is false exactly when the context was suspended and either `resume()` or the silent buffer after it threw; the context stays suspended exactly when `resume()` threw, and otherwise only ever changes to running; only the context state changes beyond `init`; the invariant is kept |
| LegacyAudio.AudioService.Unlock | src/services/AudioService.ts:16-35 | the new fields and the result are those of `UnlockStep` |
| LegacyAudio.UnlockUnlocks | src/services/AudioService.ts:16-103 | unless the context is closed, a true result from `unlock` means `isUnlocked` then holds; `isUnlocked` fails afterwards exactly when the context was suspended and `resume()` threw; `unlock` returns false with the context unlocked exactly when the silent buffer threw after a successful `resume()` |
| LegacyAudio.Unlocked | src/services/AudioService.ts:101-103 | a running context comes with a master gain node in every reachable state |
| LegacyAudio.AudioService.IsUnlocked | src/services/AudioService.ts:101-103 | true exactly when the context is running |
| LegacyAudio.StopPadStep | src/services/AudioService.ts:73-83 | the pad has no entry afterwards; its source was told to stop; other pads and the context are unchanged |
| LegacyAudio.AudioService.StopPad | src/services/AudioService.ts:73-83 | the new fields are those of `StopPadStep` |
| LegacyAudio.PlayPadStep | src/services/AudioService.ts:50-71 | without a context or gain node nothing changes; otherwise the old source was told to stop, and the pad holds the new source with gain `volume`, or no entry when `start()` threw; one fresh source number is used; the only source told to stop is the pad's old one, so other pads' sources are unchanged and none of them is stopped; the invariant is kept |
| LegacyAudio.AudioService.PlayPad | src/services/AudioService.ts:50-71 | the new fields are those of `PlayPadStep`, and `threw` reports that the exception of `start()` reached the caller, which happens exactly when there was a context and gain node and `start()` threw |
| LegacyAudio.VolumesNotClamped | src/services/AudioService.ts:60-95 | every master and pad volume is stored as given, and any volume outside [0, 1] differs from its clamped value |
| LegacyAudio.StopAllStep | src/services/AudioService.ts:85-89 | the map is empty, the sources told to stop are exactly the old ones plus every pad's source, and the context and gain are unchanged |
| LegacyAudio.StopOneMore | src/services/AudioService.ts:85-89 | `stopPad` on one more pad advances the partial `stopAll` by that pad |
| LegacyAudio.StopAllStepStopsAll | src/services/AudioService.ts:85-89 | once every pad is done, the partial `stopAll` is the whole of it |
| LegacyAudio.AudioService.StopAll | src/services/AudioService.ts:85-89 | the loop of `stopPad` calls reaches the state of `StopAllStep` |
| LegacyAudio.SetVolumeStep | src/services/AudioService.ts:91-95 | with a gain node the gain becomes `v` unclamped; without one nothing changes |
| LegacyAudio.AudioService.SetMasterVolume | src/services/AudioService.ts:91-95 | the new fields are those of `SetVolumeStep` |
| LegacyAudio.AudioService.IsPlaying | src/services/AudioService.ts:97-99 | true exactly when the pad has an entry |
| LegacyAudio.EndedAsWritten | src/services/AudioService.ts:68-70 | the registered handler removes the pad's entry whatever source it holds |
| LegacyAudio.StaleEndDropsNewerSource | src/services/AudioService.ts:54-70 | after a replay, the replaced source's end event removes the newer source's entry although it was never told to stop |
| LegacyAudio.EndedStep | src/services/AudioService.ts:68-70 | the guarded handler removes the entry only while it still holds the ending source |
| LegacyAudio.StaleEndKeepsNewerSource | src/services/AudioService.ts:54-70 | with the guarded handler the replaced source's end event changes nothing, while the newer source's own end event removes it |
| LegacyAudio.AudioService.OnEnded | src/services/AudioService.ts:68-70 | the new fields are those of the guarded `EndedStep` |
| Base64.CharOf | src/services/StorageService.ts:152 | each 6-bit value maps to an alphabet character that maps back to it |
| Base64.EncodeUnpadded | src/services/StorageService.ts:152 | `n` bytes give `4 * (n / 3)` characters plus 2 or 3 for a final partial group, all from the alphabet |
| Base64.Encode | src/services/StorageService.ts:152 | `btoa` output has length `4 * ceil(n / 3)` and consists of alphabet characters and `=` |
| Base64.GroupRoundTrip | src/services/StorageService.ts:152-170 | a group of three bytes decodes from its four characters |
| Base64.TailRoundTrip | src/services/StorageService.ts:152-170 | a final group of one or two bytes decodes from its characters |
| Base64.UnpaddedRoundTrip | src/services/StorageService.ts:152-170 | decoding the unpadded encoding of any byte string gives it back |
| Base64.StripWhitespace | src/services/StorageService.ts:168 | the text `atob` works on has no ASCII whitespace, is no longer than the input, and is the input itself when the input has no whitespace |
| Base64.StripWhitespaceMembers | src/services/StorageService.ts:168 | a character is in the stripped text exactly when it is in the input and is not ASCII whitespace |
| Base64.StripWhitespaceAppend | src/services/StorageService.ts:168 | stripping a concatenation is concatenating the stripped parts |
| Base64.DecodeIgnoresWhitespace | src/services/StorageService.ts:168 | inserting an ASCII whitespace character anywhere does not change what `atob` returns |
| Base64.StripPadding | src/services/StorageService.ts:168 | when the length is a multiple of four, one or two trailing `=` are dropped, otherwise nothing; the result is never longer than the input |
| Base64.DecodeUnpadded | src/services/StorageService.ts:168 | alphabet text of a length other than 1 mod 4 decodes four characters to three bytes, a final group of two or three characters to one or two bytes with the leftover bits dropped; at most three bytes per four characters |
| Base64.Decode | src/services/StorageService.ts:168 | `atob` yields at most three bytes per four input characters |
| Base64.DecodeAcceptsOnly | src/services/StorageService.ts:168 | `atob` accepts only text made of alphabet characters, ASCII whitespace and `=` |
| Base64.StripPaddingAfter | src/services/StorageService.ts:152-168 | removing the padding from an encoding leaves its alphabet characters |
| Base64.DecodeEncode | src/services/StorageService.ts:152-170 | `atob(btoa(s)) == s` for every byte string |
| Base64.EncodeInjective | src/services/StorageService.ts:152 | different byte strings export to different texts |
| Storage.Put | src/services/StorageService.ts:52-58 | the upsert of `saveSample` by pad id: the pad then has a record (its fields and the untouched other records are stated by `PutSaves`) |
| Storage.PutSaves | src/services/StorageService.ts:45-63 | after a save the pad's record holds the pad id, label, bytes, time and byte length; other records are unchanged; records stay keyed by pad id |
| Storage.StorageService.SaveSample | src/services/StorageService.ts:45-63 | the table becomes `Put` of the old table; settings and banks are unchanged |
| Storage.StorageService.LoadSample | src/services/StorageService.ts:65-80 | a sample comes back exactly when the pad has a record, with its label and bytes |
| Storage.StorageService.LoadAllSamples | src/services/StorageService.ts:82-103 | the result has exactly the stored pad ids, each with its label and bytes |
| Storage.StorageService.ClearAll | src/services/StorageService.ts:105-118 | all three tables are empty |
| Storage.TotalSize | src/services/StorageService.ts:129-134 | the sum of `size || 0` over the records, at least the size of each record |
| Storage.TotalSizeRemove | src/services/StorageService.ts:129-134 | the total size can be summed starting from any record |
| Storage.StorageService.GetStorageInfo | src/services/StorageService.ts:120-141 | `count` is the number of records and `totalSize` is the sum of their sizes, a missing size counting 0 |
| Storage.ExportEntry | src/services/StorageService.ts:149-153 | an entry keeps the pad id and label, and its text is `4 * ceil(n / 3)` characters for `n` bytes |
| Storage.ExportStep | src/services/StorageService.ts:149-153 | exporting one more pending pad keeps every pad exported once, at a known position |
| Storage.ExportDone | src/services/StorageService.ts:149-153 | with nothing pending, the entries list each pad of the table exactly once, as its base64 export |
| Storage.StorageService.ExportBank | src/services/StorageService.ts:143-157 | version `2.0.0`, the export time, and entries that list each stored pad exactly once with its label and `btoa` of its bytes |
| Storage.FirstCorruptFrom | src/services/StorageService.ts:166-173 | the first entry from `i` on that `atob` rejects, or the end: all entries before it decode |
| Storage.FirstCorrupt | src/services/StorageService.ts:166-173 | the entries before it decode, and the entry at it does not |
| Storage.DecodedUpTo | src/services/StorageService.ts:166-170 | the bytes `atob` makes of each of the first `n` entries, one per entry |
| Storage.SaveEntries | src/services/StorageService.ts:166-173 | saving the first `n` entries adds exactly their pad ids to the table |
| Storage.AtobAll | src/services/StorageService.ts:166-170 | one `atob` result per entry, in order |
| Storage.ImportFrom | src/services/StorageService.ts:166-173 | the import loop as recursion from entry `i`: each entry `atob` accepts is saved; it ends either with success or at an entry from `i` on that `atob` rejects (that this is the first such entry is proved by `ImportFromStops` and `ImportRuns`) |
| Storage.ImportFromStops | src/services/StorageService.ts:166-173 | the loop, from any entry before its stopping point with the earlier entries saved, saves every entry up to that point and reports it |
| Storage.ImportRuns | src/services/StorageService.ts:166-173 | the whole loop saves the entries before the first one `atob` rejects, in order, and names that entry or reports success |
| Storage.StorageService.ImportEntries | src/services/StorageService.ts:166-173 | the loop's table and result are those of `ImportFrom` over the entries' `atob` results; settings and banks are unchanged |
| Storage.StorageService.ImportBank | src/services/StorageService.ts:159-174 | a version other than `2.0.0` changes nothing and reports it; otherwise the table is the old one with the entries saved in order up to the first one `atob` rejects, and the result names that entry or reports success; settings and banks are unchanged |
| Storage.SaveDecodedUntouched | src/services/StorageService.ts:166-173 | a pad no imported entry names keeps its record, or its absence |
| Storage.SaveDecodedLastWins | src/services/StorageService.ts:166-173 | the last entry naming a pad decides its record |
| Storage.PadIdsMembers | src/services/StorageService.ts:166-173 | the pad ids of the entries are exactly the ids some entry names |
| Storage.SaveDecodedKeys | src/services/StorageService.ts:166-173 | an import adds exactly the entries' pad ids to the table |
| Storage.NoneCorrupt | src/services/StorageService.ts:166-173 | when every entry decodes, the import runs to the end |
| Storage.ExportDecodes | src/services/StorageService.ts:149-170 | every exported entry decodes to its pad's bytes |
| Storage.ImportRestores | src/services/StorageService.ts:166-173 | importing entries that name each pad once restores every pad's label and bytes, and adds exactly those pads |
| Storage.ExportImportRoundTrip | src/services/StorageService.ts:143-174 | importing an export runs to the end and restores every exported pad's label and bytes; into an empty table it restores exactly the exported pads |
| Backups.Pushed | src/services/backupSystem.ts:8-29 | the new entry is first, the old entries follow in order, and the list grows by one until it holds five, after which the oldest is dropped |
| Backups.PushedBounded | src/services/backupSystem.ts:5-21 | a list of at most five stays at most five; from five, a save drops the last and shifts the rest back by one |
| Backups.Restore | src/services/backupSystem.ts:41-48 | a version comes back exactly when the index is within the list, and it is that entry's version |
| Backups.RestoreAfterSave | src/services/backupSystem.ts:8-48 | right after any save, backup 0 is the saved version; for each `i` within the new list past 0, backup `i` is what backup `i - 1` was |
| Backups.Reverse | src/services/backupSystem.ts:12-21 | the reversal has the same length, with entry `i` from position `n - 1 - i` |
| Backups.SaveAllKeepsNewest | src/services/backupSystem.ts:5-29 | from no backups, a run of saves leaves the last five saved, newest first |
| Backups.Listed | src/services/backupSystem.ts:33-34 | the list read is empty exactly when nothing is stored, the text does not parse, or the stored list is empty |
| Backups.BackupSystem.GetBackups | src/services/backupSystem.ts:31-38 | the stored list, or the empty list when nothing is stored or the text does not parse |
| Backups.BackupSystem.SaveWorkingVersion | src/services/backupSystem.ts:8-29 | if the write fails nothing changes; otherwise the key holds `Pushed` of the old list with the new backup (label `Backup ` and the date); at most five stay at most five |
| Backups.BackupSystem.RestoreBackup | src/services/backupSystem.ts:41-48 | a version comes back exactly when the index is within the stored list, and it is that entry's version |
| Backups.BackupSystem.ClearBackups | src/services/backupSystem.ts:51-55 | the key is removed, so `getBackups` reads the empty list |

## Left out

- Audio output itself is not modelled: the sound, the node graph connections, `disconnect`, `context.close()` and `currentTime` (the last is the `now` parameter). A source node is only a number plus the record that its `stop()` was called.
- The `async` scheduling of every method is not modelled. Each operation runs to completion before the next starts.
- JavaScript numbers are modelled as unbounded reals and integers, so NaN, infinities and rounding are left out. With NaN, `Math.max(0, Math.min(1, NaN))` is NaN, which the clamp model does not cover.
- AudioEngine.InitStep: a `createGain` or `connect` failure is folded into `createThrows`. The webkit-prefixed constructor is not distinguished from the standard one.
- LegacyAudio.InitStep, LegacyAudio.UnlockStep: a failure of `new AudioContext()` in `init` (which `init` does not catch, and neither does `unlock` when it calls `init`) is not modelled.
- AudioEngine.AudioSystem.Play, LegacyAudio.AudioService.PlayPad: the default `volume = 1` of `play` and `playPad` is not modelled; the volume is a required parameter.
- `AudioService.loadAudio` (fetch and decode of a URL) is not modelled. Apart from the network I/O and the wrapping of its error, it calls `init()` when there is no context; that state change is `LegacyAudio.InitStep`, which is modelled.
- AudioEngine.AudioSystem.LoadAudioFile: reading and decoding the file are the `decoded` parameter. A read or decode failure is `None`.
- The opening of the IndexedDB database (`init`, schema upgrade, open failure) and the failure of any request are not modelled. The tables of an earlier session are the constructor's arguments.
- Storage.StorageService.ImportBank: every entry is saved with one timestamp `now`, while the source takes a fresh `new Date()` for each save. The JSON text is replaced by its parsed structure. Malformed JSON, a missing `samples` array and non-string fields are left out.
- Storage.StorageService.ExportBank: it returns the document, not its JSON text. The entries come out in an unspecified order, while the source uses IndexedDB key order. The engine limit on the number of arguments of `String.fromCharCode(...)` (a very large sample throws) is not modelled.
- The `settings` and `banks` tables appear only as opaque maps. No core operation except `clearAll` uses them.
- Backups.BackupSystem.GetBackups: the stored JSON is either a list of backups or text that does not parse. JSON that parses to something other than a list (`null`, a number) is left out. With `null`, `restoreBackup` throws in the source; with a number it returns null.
- Backups.BackupSystem.RestoreBackup: a non-integer index (which yields `undefined`, hence null) is not modelled, because the index is an `int`.
- Backups.BackupSystem.SaveWorkingVersion: `Date.now()` and the locale formatting of the label date are parameters (`timestamp`, `dateText`). Console logging is left out everywhere.
- The code has no per-channel float codec, no atomic import, no playback-end timer, no version stamp on in-flight sample loads and no typed errors. The model follows the code: raw bytes, an import that stops part-way, and `false`/`null` results.
- LegacyAudio.AudioService.PlayPad: the exception of `start()` is not raised; the method returns it as `threw`, with the state the source leaves behind.
- AudioEngine.AudioSystem.SetMasterVolume and AudioEngine.AudioSystem.Dispose: a host exception from the gain update or from `context.close()` is not modelled; the source does not catch either.

## Findings

| source | as written | input that shows it | evidently intended | confidence | as-written member | corrected member |
|---|---|---|---|---|---|---|
| src/services/audioSystem.ts:120-123 | the `onended` handler deletes `activeSources[padId]` whatever voice it now holds | play pad "a", play pad "a" again (the first voice is stopped and its end event fires later) | only the voice that ended is removed; the newer voice keeps playing and stays stoppable | not executed | AudioEngine.StaleEndDropsNewerVoice | AudioEngine.StaleEndKeepsNewerVoice |
| src/services/AudioService.ts:68-70 | the `onended` handler deletes `activeSources[padId]` whatever source it now holds | `playPad("a", b)` twice; the first source's end event arrives after the second `playPad` | only the source that ended is removed | not executed | LegacyAudio.StaleEndDropsNewerSource | LegacyAudio.StaleEndKeepsNewerSource |

The corrected handlers `AudioEngine.EndedStep` and `LegacyAudio.EndedStep` compare the ending node with the pad's current entry. They are the ones the classes' `OnEnded` methods use.

=== FILE: audio_service.dfy ===
/** The older playback engine of src/services/AudioService.ts.

    The same kind of voice map as module AudioEngine, over the fields of class
    `AudioService`: the output context, the master gain node's value, and the
    map `activeSources` from pad id to the source node playing on that pad.
    Unlike AudioEngine it clamps neither the master nor the per-pad gain, it
    has no initialised flag, and `stopPad` swallows every error.  Source nodes
    are numbered by `nextSource`; `stopCalled` records the ones whose `stop()`
    the service has called. */
module LegacyAudio {
  import opened Common

  /** The gain of a newly created `GainNode`. */
  const DefaultGain: real := 1.0

  /** One entry of `activeSources`: the source node (by identity), the buffer
      it plays and the value of the pad gain node it is wired through. */
  datatype Source = Source(id: nat, buffer: AudioBuffer, gain: real)

  datatype ServiceState = ServiceState(
    context: Option<ContextState>,
    gainNode: Option<real>,
    sources: map<string, Source>,
    stopCalled: set<nat>,
    nextSource: nat)

  /** The state of a newly constructed service. */
  const Fresh: ServiceState := ServiceState(None, None, map[], {}, 0)

  /** The context and the master gain node exist together, each pad has its
      own source node, and every source node mentioned was created here. */
  ghost predicate Inv(s: ServiceState) {
    && (s.context.Some? <==> s.gainNode.Some?)
    && (forall p :: p in s.sources ==> s.sources[p].id < s.nextSource)
    && (forall p, q :: p in s.sources && q in s.sources && s.sources[p].id == s.sources[q].id ==> p == q)
    && (forall n :: n in s.stopCalled ==> n < s.nextSource)
  }

  /** Every pad other than `pad` has the same entry (or none) in `a` and `b`. */
  ghost predicate OthersUnchanged(a: map<string, Source>, b: map<string, Source>, pad: string) {
    forall q :: q != pad ==> (q in a <==> q in b) && (q in a ==> a[q] == b[q])
  }

  /** The source nodes playing on the pads in `keys`. */
  function IdsAt(sources: map<string, Source>, keys: set<string>): set<nat> {
    set p | p in keys && p in sources :: sources[p].id
  }

  /** `init`: does nothing once a context exists; otherwise opens one (the host
      reports `hostState`) with a master gain node at its default gain. */
  function InitStep(s: ServiceState, hostState: ContextState): (r: ServiceState)
    ensures s.context.Some? ==> r == s
    ensures s.context.None? ==> r.context == Some(hostState) && r.gainNode == Some(DefaultGain)
    ensures r.context.Some?
    ensures r.sources == s.sources && r.stopCalled == s.stopCalled && r.nextSource == s.nextSource
    ensures Inv(s) ==> Inv(r)
  {
    if s.context.Some? then s
    else s.(context := Some(hostState), gainNode := Some(DefaultGain))
  }

  /** `unlock`: `init` if there is no context, then resume a suspended context
      and play a silent one-sample buffer through it.  `resumeThrows` says that
      `resume()` rejects, which leaves the context suspended; `silentThrows`
      says that building or starting the silent buffer throws after a
      successful `resume()`, which leaves the context running.  Either error is
      caught and reported as false. */
  function UnlockStep(s: ServiceState, hostState: ContextState, resumeThrows: bool, silentThrows: bool)
    : (r: (ServiceState, bool))
    ensures r.0.context.Some?
    ensures !r.1 <==> InitStep(s, hostState).context == Some(Suspended) && (resumeThrows || silentThrows)
    ensures r.0.context == Some(Suspended) <==> InitStep(s, hostState).context == Some(Suspended) && resumeThrows
    ensures r.0.context != InitStep(s, hostState).context ==> r.0.context == Some(Running)
    ensures r.0.(context := InitStep(s, hostState).context) == InitStep(s, hostState)
    ensures Inv(s) ==> Inv(r.0)
  {
    var s1 := InitStep(s, hostState);
    if s1.context == Some(Suspended) then
      if resumeThrows then (s1, false) else (s1.(context := Some(Running)), !silentThrows)
    else (s1, true)
  }

  /** The `isUnlocked` getter: the context is running.  An unlocked service
      has its master gain node, so `playPad` does not return early. */
  predicate Unlocked(s: ServiceState): (r: bool)
    ensures r && Inv(s) ==> s.gainNode.Some?
  {
    s.context == Some(Running)
  }

  /** `stopPad(pad)`: the pad's source, if any, is told to stop (an error is
      swallowed) and its entry removed; other pads are untouched. */
  function StopPadStep(s: ServiceState, pad: string): (r: ServiceState)
    ensures pad !in r.sources
    ensures pad !in s.sources ==> r == s
    ensures pad in s.sources ==> r.stopCalled == s.stopCalled + {s.sources[pad].id}
    ensures OthersUnchanged(s.sources, r.sources, pad)
    ensures r.context == s.context && r.gainNode == s.gainNode && r.nextSource == s.nextSource
    ensures Inv(s) ==> Inv(r)
  {
    if pad in s.sources then s.(sources := s.sources - {pad}, stopCalled := s.stopCalled + {s.sources[pad].id})
    else s
  }

  /** `playPad(pad, buffer, volume)`: a no-op without a context or gain node;
      otherwise the pad's previous source is stopped and a new source whose pad
      gain is `volume`, unclamped, is started.  The entry is stored after
      `start()`, so when `start()` throws the pad is left with no entry; the
      exception is not caught and reaches the caller (see `AudioService.PlayPad`). */
  function PlayPadStep(s: ServiceState, pad: string, buffer: AudioBuffer, volume: real, startThrows: bool)
    : (r: ServiceState)
    ensures s.context.None? || s.gainNode.None? ==> r == s
    ensures s.context.Some? && s.gainNode.Some? ==>
              && (startThrows ==> pad !in r.sources)
              && (!startThrows ==> pad in r.sources && r.sources[pad] == Source(s.nextSource, buffer, volume))
              && (pad in s.sources ==> s.sources[pad].id in r.stopCalled)
              && r.stopCalled == s.stopCalled + (if pad in s.sources then {s.sources[pad].id} else {})
              && r.nextSource == s.nextSource + 1
    ensures OthersUnchanged(s.sources, r.sources, pad)
    ensures r.context == s.context && r.gainNode == s.gainNode
    ensures Inv(s) ==> Inv(r)
  {
    if s.context.None? || s.gainNode.None? then s
    else
      var cleared := StopPadStep(s, pad);
      var id := cleared.nextSource;
      if startThrows then cleared.(nextSource := id + 1)
      else cleared.(sources := cleared.sources[pad := Source(id, buffer, volume)], nextSource := id + 1)
  }

  /** `stopAll`: `stopPad` on every pad; the map ends empty. */
  function StopAllStep(s: ServiceState): (r: ServiceState)
    ensures r.sources == map[]
    ensures forall p :: p in s.sources ==> s.sources[p].id in r.stopCalled
    ensures r.stopCalled == s.stopCalled + IdsAt(s.sources, s.sources.Keys)
    ensures r.context == s.context && r.gainNode == s.gainNode && r.nextSource == s.nextSource
    ensures Inv(s) ==> Inv(r)
  {
    s.(sources := map[], stopCalled := s.stopCalled + IdsAt(s.sources, s.sources.Keys))
  }

  /** Part way through `stopAll`: the pads in `done` are stopped. */
  function StoppedSoFar(s: ServiceState, done: set<string>): ServiceState {
    s.(sources := s.sources - done, stopCalled := s.stopCalled + IdsAt(s.sources, done))
  }

  /** Stopping one more pad advances `stopAll` by that pad. */
  lemma StopOneMore(s: ServiceState, done: set<string>, pad: string)
    requires pad in s.sources && pad !in done
    ensures StopPadStep(StoppedSoFar(s, done), pad) == StoppedSoFar(s, done + {pad})
  {
    assert IdsAt(s.sources, done + {pad}) == IdsAt(s.sources, done) + {s.sources[pad].id};
    assert s.sources - done - {pad} == s.sources - (done + {pad});
  }

  /** Once every pad is done, `stopAll` is complete. */
  lemma StopAllStepStopsAll(s: ServiceState)
    ensures StoppedSoFar(s, s.sources.Keys) == StopAllStep(s)
  {
    assert s.sources - s.sources.Keys == map[];
  }

  /** `setMasterVolume(v)`: stores `v` as given, and only when the gain node
      exists. */
  function SetVolumeStep(s: ServiceState, volume: real): (r: ServiceState)
    ensures s.gainNode.None? ==> r == s
    ensures s.gainNode.Some? ==> r.gainNode == Some(volume)
    ensures r.(gainNode := s.gainNode) == s
    ensures Inv(s) ==> Inv(r)
  {
    if s.gainNode.Some? then s.(gainNode := Some(volume)) else s
  }

  /** The `onended` handler exactly as AudioService.ts registers it: it deletes
      the entry of the pad it was registered for, whichever source that entry
      now holds. */
  function EndedAsWritten(s: ServiceState, pad: string): (r: ServiceState)
    ensures pad !in r.sources
    ensures OthersUnchanged(s.sources, r.sources, pad)
  {
    s.(sources := s.sources - {pad})
  }

  /** The corrected handler: the end of source `id`, registered for `pad`,
      removes the pad's entry only while the entry still holds that source. */
  function EndedStep(s: ServiceState, pad: string, id: nat): (r: ServiceState)
    ensures pad in s.sources && s.sources[pad].id == id ==> pad !in r.sources
    ensures !(pad in s.sources && s.sources[pad].id == id) ==> r == s
    ensures OthersUnchanged(s.sources, r.sources, pad)
    ensures r.(sources := s.sources) == s
    ensures Inv(s) ==> Inv(r)
  {
    if pad in s.sources && s.sources[pad].id == id then s.(sources := s.sources - {pad}) else s
  }

  /** Calling `init` again changes nothing, whatever the host would report. */
  lemma InitIdempotent(s: ServiceState, first: ContextState, second: ContextState)
    ensures InitStep(InitStep(s, first), second) == InitStep(s, first)
  {
  }

  /** Unless the host handed out a closed context, a true result from `unlock`
      means the service is unlocked; it stays locked exactly when resuming a
      suspended context threw; and it reports false while unlocked exactly
      when the silent buffer threw after a successful `resume()`. */
  lemma UnlockUnlocks(s: ServiceState, hostState: ContextState, resumeThrows: bool, silentThrows: bool)
    requires s.context != Some(Closed) && (s.context.None? ==> hostState != Closed)
    ensures var r := UnlockStep(s, hostState, resumeThrows, silentThrows);
            var wasSuspended := InitStep(s, hostState).context == Some(Suspended);
            && (r.1 ==> Unlocked(r.0))
            && (Unlocked(r.0) <==> !(wasSuspended && resumeThrows))
            && (Unlocked(r.0) && !r.1 <==> wasSuspended && !resumeThrows && silentThrows)
  {
    var s1 := InitStep(s, hostState);
    if s.context.None? {
      assert s1.context == Some(hostState);
    } else {
      assert s1 == s;
    }
    assert s1.context.value != Closed;
  }

  /** Neither gain stage is clamped: any volume, in range or not, is stored as
      given, so out of [0, 1] it differs from the clamped value the newer
      engine would store. */
  lemma VolumesNotClamped(s: ServiceState, pad: string, buffer: AudioBuffer, master: real, volume: real)
    requires s.context.Some? && s.gainNode.Some?
    ensures SetVolumeStep(s, master).gainNode == Some(master)
    ensures PlayPadStep(s, pad, buffer, volume, false).sources[pad].gain == volume
    ensures !(0.0 <= master <= 1.0) ==> SetVolumeStep(s, master).gainNode != Some(Clamp01(master))
    ensures !(0.0 <= volume <= 1.0) ==> PlayPadStep(s, pad, buffer, volume, false).sources[pad].gain != Clamp01(volume)
  {
  }

  /** As written, the end event of a replaced source deletes the newer
      source's entry although the newer source was never told to stop. */
  lemma StaleEndDropsNewerSource(s: ServiceState, pad: string, buffer: AudioBuffer, volume: real)
    requires Inv(s) && s.context.Some? && pad in s.sources
    ensures var replayed := PlayPadStep(s, pad, buffer, volume, false);
            var ended := EndedAsWritten(replayed, pad);
            && s.sources[pad].id in replayed.stopCalled
            && replayed.sources[pad].id !in ended.stopCalled
            && pad !in ended.sources
  {
  }

  /** With the guarded handler the newer source survives the end event of the
      source it replaced, while its own end event still removes it. */
  lemma StaleEndKeepsNewerSource(s: ServiceState, pad: string, buffer: AudioBuffer, volume: real)
    requires Inv(s) && s.context.Some? && pad in s.sources
    ensures var replayed := PlayPadStep(s, pad, buffer, volume, false);
            && EndedStep(replayed, pad, s.sources[pad].id) == replayed
            && pad !in EndedStep(replayed, pad, replayed.sources[pad].id).sources
  {
  }

  class AudioService {
    var context: Option<ContextState>
    var gainNode: Option<real>
    var activeSources: map<string, Source>
    var stopCalled: set<nat>
    var nextSource: nat

    function State(): ServiceState
      reads this
    {
      ServiceState(context, gainNode, activeSources, stopCalled, nextSource)
    }

    ghost predicate Valid()
      reads this
    {
      Inv(State())
    }

    constructor()
      ensures Valid() && State() == Fresh
    {
      context := None;
      gainNode := None;
      activeSources := map[];
      stopCalled := {};
      nextSource := 0;
    }

    method Init(hostState: ContextState)
      requires Valid()
      modifies this
      ensures Valid()
      ensures State() == InitStep(old(State()), hostState)
    {
      if context.Some? {
        return;
      }
      context := Some(hostState);
      gainNode := Some(DefaultGain);
    }

    method Unlock(hostState: ContextState, resumeThrows: bool, silentThrows: bool) returns (ok: bool)
      requires Valid()
      modifies this
      ensures Valid()
      ensures (State(), ok) == UnlockStep(old(State()), hostState, resumeThrows, silentThrows)
    {
      if context.None? {
        Init(hostState);
      }
      if context == Some(Suspended) {
        if resumeThrows {
          return false;
        }
        context := Some(Running);
        return !silentThrows;
      }
      ok := true;
    }

    /** `threw` says that the exception of a throwing `start()` escaped to the
        caller; `playPad` has no `try`. */
    method PlayPad(padId: string, buffer: AudioBuffer, volume: real, startThrows: bool) returns (threw: bool)
      requires Valid()
      modifies this
      ensures Valid()
      ensures State() == PlayPadStep(old(State()), padId, buffer, volume, startThrows)
      ensures threw <==> old(context).Some? && old(gainNode).Some? && startThrows
    {
      if context.None? || gainNode.None? {
        return false;
      }
      StopPad(padId);
      ghost var cleared := State();
      var id := nextSource;
      nextSource := nextSource + 1;
      if startThrows {
        return true;
      }
      threw := false;
      activeSources := activeSources[padId := Source(id, buffer, volume)];
      assert State() == cleared.(sources := cleared.sources[padId := Source(id, buffer, volume)],
                                 nextSource := id + 1);
    }

    method StopPad(padId: string)
      requires Valid()
      modifies this
      ensures Valid()
      ensures State() == StopPadStep(old(State()), padId)
    {
      if padId in activeSources {
        stopCalled := stopCalled + {activeSources[padId].id};
        activeSources := activeSources - {padId};
      }
    }

    method StopAll()
      requires Valid()
      modifies this
      ensures Valid()
      ensures State() == StopAllStep(old(State()))
    {
      ghost var done: set<string> := {};
      var pending := activeSources.Keys;
      while pending != {}
        invariant Valid()
        invariant done <= old(activeSources).Keys && pending == old(activeSources).Keys - done
        invariant State() == StoppedSoFar(old(State()), done)
        decreases pending
      {
        var padId :| padId in pending;
        StopOneMore(old(State()), done, padId);
        StopPad(padId);
        pending := pending - {padId};
        done := done + {padId};
      }
      StopAllStepStopsAll(old(State()));
    }

    method SetMasterVolume(volume: real)
      requires Valid()
      modifies this
      ensures Valid()
      ensures State() == SetVolumeStep(old(State()), volume)
    {
      if gainNode.Some? {
        gainNode := Some(volume);
      }
    }

    method IsPlaying(padId: string) returns (r: bool)
      ensures r <==> padId in activeSources
    {
      r := padId in activeSources;
    }

    /** The `isUnlocked` getter. */
    method IsUnlocked() returns (r: bool)
      ensures r <==> Unlocked(State())
    {
      r := context == Some(Running);
    }

    /** The `onended` event of source `id`, whose handler was registered for
        `padId`, with the guard of `EndedStep`. */
    method OnEnded(padId: string, id: nat)
      requires Valid()
      modifies this
      ensures Valid()
      ensures State() == EndedStep(old(State()), padId, id)
    {
      if padId in activeSources && activeSources[padId].id == id {
        activeSources := activeSources - {padId};
      }
    }
  }
}

=== FILE: audio_system.dfy ===
/** The playback engine of src/services/audioSystem.ts.

    The engine is a state machine over the fields of class `AudioSystem`:
    whether it is initialised, the output context (absent, or present in the
    state the host reports), the master gain node's value, and the map
    `activeSources` from pad id to the voice playing on that pad.  Web Audio
    nodes are abstract: a source node is identified by a number handed out by
    `nextSource`, and `stopCalled` records the source nodes whose `stop()` the
    engine has called.  Host failures (a throwing constructor, a rejected
    `resume()`, a throwing `stop()` or `start()`) and the host clock are
    parameters.

    Each operation is first given as a step function on `EngineState`; the
    class's methods update the fields imperatively and promise that the new
    state is the step function applied to the old one. */
module AudioEngine {
  import opened Common

  /** `loadAudioFile` refuses files larger than 50 MiB. */
  const MaxFileSize: nat := 50 * 1024 * 1024

  /** The master gain a successful `initialize` installs. */
  const DefaultMasterGain: real := 0.7

  /** The prefix a file's MIME type must start with. */
  const AudioMimePrefix: string := "audio/"

  /** The parts of a `File` that `loadAudioFile` checks before decoding. */
  datatype AudioFile = AudioFile(mimeType: string, size: nat)

  /** One entry of `activeSources`: the source node (by identity), the buffer
      it plays, the value of its own gain node and the context time at which it
      was started. */
  datatype Voice = Voice(source: nat, buffer: AudioBuffer, gain: real, startTime: real)

  /** What `getStatus` returns. */
  datatype Status = Status(initialized: bool, playing: nat, state: string)

  datatype EngineState = EngineState(
    initialized: bool,
    context: Option<ContextState>,
    masterGain: Option<real>,
    voices: map<string, Voice>,
    stopCalled: set<nat>,
    nextSource: nat)

  /** The state of a newly constructed engine. */
  const Fresh: EngineState := EngineState(false, None, None, map[], {}, 0)

  /** The invariant every operation keeps: an initialised engine has a context,
      the context and the master gain node exist together, every gain lies in
      [0, 1], each voice has its own source node, and every source node a
      voice or a `stop()` call refers to was created by this engine. */
  ghost predicate Inv(s: EngineState) {
    && (s.initialized ==> s.context.Some?)
    && (s.context.Some? <==> s.masterGain.Some?)
    && (s.masterGain.Some? ==> 0.0 <= s.masterGain.value <= 1.0)
    && (forall p :: p in s.voices ==> 0.0 <= s.voices[p].gain <= 1.0 && s.voices[p].source < s.nextSource)
    && (forall p, q :: p in s.voices && q in s.voices && s.voices[p].source == s.voices[q].source ==> p == q)
    && (forall n :: n in s.stopCalled ==> n < s.nextSource)
  }

  /** Every pad other than `pad` has the same entry (or none) in `a` and `b`. */
  ghost predicate OthersUnchanged(a: map<string, Voice>, b: map<string, Voice>, pad: string) {
    forall q :: q != pad ==> (q in a <==> q in b) && (q in a ==> a[q] == b[q])
  }

  /** The source nodes of the voices on the pads in `keys`. */
  function SourcesAt(voices: map<string, Voice>, keys: set<string>): set<nat> {
    set p | p in keys && p in voices :: voices[p].source
  }

  lemma SourcesAtAdd(voices: map<string, Voice>, keys: set<string>, pad: string)
    requires pad in voices
    ensures SourcesAt(voices, keys + {pad}) == SourcesAt(voices, keys) + {voices[pad].source}
  {
  }

  function SourcesOf(voices: map<string, Voice>): set<nat> {
    SourcesAt(voices, voices.Keys)
  }

  function StatusText(context: Option<ContextState>): string {
    if context.None? then "uninitialized" else StateName(context.value)
  }

  /** `initialize`: a no-op reporting success when already initialised with a
      live context; otherwise open a context (the host reports `hostState`),
      install the master gain at 0.7, and resume a suspended context. */
  function InitStep(s: EngineState, hostState: ContextState, createThrows: bool, resumeThrows: bool)
    : (r: (EngineState, bool))
    ensures r.1 == r.0.initialized
    ensures r.1 <==> (s.initialized && s.context.Some?)
                     || (!createThrows && !(hostState == Suspended && resumeThrows))
    ensures s.initialized && s.context.Some? ==> r.0 == s
    ensures !(s.initialized && s.context.Some?) && r.1 ==>
              r.0.masterGain == Some(DefaultMasterGain) && r.0.context.Some? && r.0.context.value != Suspended
    ensures createThrows && !(s.initialized && s.context.Some?) ==>
              r.0.context == s.context && r.0.masterGain == s.masterGain
    ensures r.0.voices == s.voices && r.0.stopCalled == s.stopCalled && r.0.nextSource == s.nextSource
    ensures Inv(s) ==> Inv(r.0)
  {
    if s.initialized && s.context.Some? then (s, true)
    else if createThrows then (s.(initialized := false), false)
    else
      var live := s.(context := Some(hostState), masterGain := Some(DefaultMasterGain));
      if hostState == Suspended && resumeThrows then (live.(initialized := false), false)
      else (live.(context := Some(if hostState == Suspended then Running else hostState), initialized := true), true)
  }

  /** The checks `loadAudioFile` makes before it reads or decodes the file. */
  predicate AcceptsUpload(file: AudioFile): (r: bool)
    ensures r <==> |file.mimeType| >= 6 && file.mimeType[..6] == "audio/" && file.size <= 52428800
  {
    AudioMimePrefix <= file.mimeType && file.size <= MaxFileSize
  }

  /** The check `loadAudioFile` makes on the decoded buffer. */
  predicate Playable(b: AudioBuffer): (r: bool)
    ensures r ==> b.numberOfChannels >= 1
    ensures b.duration <= 0.0 ==> !r
  {
    b.duration > 0.0 && b.numberOfChannels > 0
  }

  /** `stop(pad)`: the voice on `pad`, if any, is told to stop and its entry is
      removed, whether or not `stop()` throws; the result says whether there was
      a voice and stopping it did not throw. */
  function StopStep(s: EngineState, pad: string, stopThrows: bool): (r: (EngineState, bool))
    ensures pad !in r.0.voices
    ensures r.1 <==> pad in s.voices && !stopThrows
    ensures pad !in s.voices ==> r.0 == s
    ensures pad in s.voices ==> r.0.stopCalled == s.stopCalled + {s.voices[pad].source}
    ensures OthersUnchanged(s.voices, r.0.voices, pad)
    ensures r.0.initialized == s.initialized && r.0.context == s.context
    ensures r.0.masterGain == s.masterGain && r.0.nextSource == s.nextSource
    ensures Inv(s) ==> Inv(r.0)
  {
    if pad !in s.voices then (s, false)
    else (s.(voices := s.voices - {pad}, stopCalled := s.stopCalled + {s.voices[pad].source}), !stopThrows)
  }

  /** `play(pad, buffer, volume)`: refused unless there is a context, a master
      gain and a buffer; otherwise the pad's previous voice is stopped and a
      new voice with a new source node and gain `clamp(volume, 0, 1)` takes its
      place.  The entry is stored before `start()` runs, so it stays even when
      `start()` throws and the call returns false. */
  function PlayStep(s: EngineState, pad: string, buffer: Option<AudioBuffer>, volume: real,
                    now: real, startThrows: bool): (r: (EngineState, bool))
    ensures s.context.None? || s.masterGain.None? || buffer.None? ==> r == (s, false)
    ensures s.context.Some? && s.masterGain.Some? && buffer.Some? ==>
              && pad in r.0.voices
              && r.0.voices[pad] == Voice(s.nextSource, buffer.value, Clamp01(volume), now)
              && r.0.nextSource == s.nextSource + 1
              && r.1 == !startThrows
              && r.0.stopCalled == s.stopCalled + (if pad in s.voices then {s.voices[pad].source} else {})
    ensures OthersUnchanged(s.voices, r.0.voices, pad)
    ensures r.0.initialized == s.initialized && r.0.context == s.context && r.0.masterGain == s.masterGain
    ensures Inv(s) ==> Inv(r.0)
  {
    if s.context.None? || s.masterGain.None? || buffer.None? then (s, false)
    else
      var cleared := StopStep(s, pad, false).0;
      var v := Voice(cleared.nextSource, buffer.value, Clamp01(volume), now);
      (cleared.(voices := cleared.voices[pad := v], nextSource := cleared.nextSource + 1), !startThrows)
  }

  /** `stopAll`: every voice is told to stop (failures are swallowed) and the
      map is emptied. */
  function StopAllStep(s: EngineState): (r: EngineState)
    ensures r.voices == map[]
    ensures forall p :: p in s.voices ==> s.voices[p].source in r.stopCalled
    ensures r.stopCalled == s.stopCalled + SourcesOf(s.voices)
    ensures r.initialized == s.initialized && r.context == s.context
    ensures r.masterGain == s.masterGain && r.nextSource == s.nextSource
    ensures Inv(s) ==> Inv(r)
  {
    s.(voices := map[], stopCalled := s.stopCalled + SourcesOf(s.voices))
  }

  /** `setMasterVolume(v)`: the master gain becomes `clamp(v, 0, 1)` when the
      master gain node exists, and nothing happens otherwise. */
  function SetVolumeStep(s: EngineState, volume: real): (r: EngineState)
    ensures s.masterGain.None? ==> r == s
    ensures s.masterGain.Some? ==> r.masterGain == Some(Clamp01(volume))
    ensures r.masterGain.Some? ==> 0.0 <= r.masterGain.value <= 1.0
    ensures r.(masterGain := s.masterGain) == s
    ensures Inv(s) ==> Inv(r)
  {
    if s.masterGain.Some? then s.(masterGain := Some(Clamp01(volume))) else s
  }

  /** `dispose`: stop every voice, then drop the context and the master gain
      and mark the engine uninitialised. */
  function DisposeStep(s: EngineState): (r: EngineState)
    ensures r.voices == map[] && r.context.None? && r.masterGain.None? && !r.initialized
    ensures forall p :: p in s.voices ==> s.voices[p].source in r.stopCalled
    ensures r.stopCalled == s.stopCalled + SourcesOf(s.voices)
    ensures r.nextSource == s.nextSource
    ensures Inv(s) ==> Inv(r)
  {
    StopAllStep(s).(context := None, masterGain := None, initialized := false)
  }

  /** `getStatus`. */
  function StatusOf(s: EngineState): (r: Status)
    ensures r.playing == |s.voices|
    ensures r.initialized == s.initialized
    ensures r.state == "uninitialized" <==> s.context.None?
    ensures s.context.Some? ==> r.state == StateName(s.context.value)
  {
    Status(s.initialized, |s.voices|, StatusText(s.context))
  }

  /** The `onended` handler exactly as audioSystem.ts registers it: it deletes
      the entry of the pad it was registered for, whichever voice that entry
      now holds. */
  function EndedAsWritten(s: EngineState, pad: string): (r: EngineState)
    ensures pad !in r.voices
    ensures OthersUnchanged(s.voices, r.voices, pad)
  {
    s.(voices := s.voices - {pad})
  }

  /** The corrected handler: the end of source node `source`, registered for
      `pad`, removes the pad's entry only while that entry is still the voice
      of `source`. */
  function EndedStep(s: EngineState, pad: string, source: nat): (r: EngineState)
    ensures pad in s.voices && s.voices[pad].source == source ==> pad !in r.voices
    ensures !(pad in s.voices && s.voices[pad].source == source) ==> r == s
    ensures OthersUnchanged(s.voices, r.voices, pad)
    ensures r.(voices := s.voices) == s
    ensures Inv(s) ==> Inv(r)
  {
    if pad in s.voices && s.voices[pad].source == source then s.(voices := s.voices - {pad}) else s
  }

  /** Disposing twice leaves the same state as disposing once. */
  lemma DisposeIdempotent(s: EngineState)
    ensures DisposeStep(DisposeStep(s)) == DisposeStep(s)
  {
    var d := DisposeStep(s);
    assert SourcesOf(d.voices) == {};
  }

  /** After `dispose` the status reports an uninitialised engine with nothing
      playing. */
  lemma DisposedStatus(s: EngineState)
    ensures StatusOf(DisposeStep(s)) == Status(false, 0, "uninitialized")
    ensures StatusOf(DisposeStep(DisposeStep(s))) == StatusOf(DisposeStep(s))
  {
    DisposeIdempotent(s);
  }

  /** Playing a pad twice leaves one voice on it, the second, and the first
      has been told to stop. */
  lemma ReplayKeepsOneVoice(s: EngineState, pad: string, b1: AudioBuffer, b2: AudioBuffer,
                            v1: real, v2: real, t1: real, t2: real)
    requires Inv(s) && s.context.Some?
    ensures var s1 := PlayStep(s, pad, Some(b1), v1, t1, false).0;
            var s2 := PlayStep(s1, pad, Some(b2), v2, t2, false).0;
            && s2.voices[pad] == Voice(s.nextSource + 1, b2, Clamp01(v2), t2)
            && s1.voices[pad].source in s2.stopCalled
            && s1.voices[pad].source != s2.voices[pad].source
            && |s2.voices| == |s1.voices|
  {
    var s1 := PlayStep(s, pad, Some(b1), v1, t1, false).0;
    var s2 := PlayStep(s1, pad, Some(b2), v2, t2, false).0;
    assert s2.voices.Keys == s1.voices.Keys;
  }

  /** As written, the end event of a replaced voice deletes the newer voice's
      entry: the new source node was never told to stop, yet the pad no longer
      reads as playing and `stop` can no longer reach it. */
  lemma StaleEndDropsNewerVoice(s: EngineState, pad: string, b: AudioBuffer, volume: real, now: real)
    requires Inv(s) && s.context.Some? && pad in s.voices
    ensures var replayed := PlayStep(s, pad, Some(b), volume, now, false).0;
            var ended := EndedAsWritten(replayed, pad);
            && s.voices[pad].source in replayed.stopCalled
            && replayed.voices[pad].source !in ended.stopCalled
            && pad !in ended.voices
            && StopStep(ended, pad, false).1 == false
  {
  }

  /** With the guarded handler the newer voice survives the end event of the
      voice it replaced, while its own end event still removes it. */
  lemma StaleEndKeepsNewerVoice(s: EngineState, pad: string, b: AudioBuffer, volume: real, now: real)
    requires Inv(s) && s.context.Some? && pad in s.voices
    ensures var replayed := PlayStep(s, pad, Some(b), volume, now, false).0;
            && EndedStep(replayed, pad, s.voices[pad].source) == replayed
            && pad !in EndedStep(replayed, pad, replayed.voices[pad].source).voices
  {
  }

  class AudioSystem {
    var context: Option<ContextState>
    var masterGain: Option<real>
    var isInitialized: bool
    var activeSources: map<string, Voice>
    var stopCalled: set<nat>
    var nextSource: nat

    function State(): EngineState
      reads this
    {
      EngineState(isInitialized, context, masterGain, activeSources, stopCalled, nextSource)
    }

    ghost predicate Valid()
      reads this
    {
      Inv(State())
    }

    constructor()
      ensures Valid() && State() == Fresh
    {
      context := None;
      masterGain := None;
      isInitialized := false;
      activeSources := map[];
      stopCalled := {};
      nextSource := 0;
    }

    method Initialize(hostState: ContextState, createThrows: bool, resumeThrows: bool) returns (ok: bool)
      requires Valid()
      modifies this
      ensures Valid()
      ensures (State(), ok) == InitStep(old(State()), hostState, createThrows, resumeThrows)
    {
      if isInitialized && context.Some? {
        return true;
      }
      if createThrows {
        isInitialized := false;
        return false;
      }
      context := Some(hostState);
      masterGain := Some(DefaultMasterGain);
      if hostState == Suspended {
        if resumeThrows {
          isInitialized := false;
          return false;
        }
        context := Some(Running);
      }
      isInitialized := true;
      ok := true;
    }

    /** `loadAudioFile`, with the host's read-and-decode of the file given as
        `decoded` (None when reading or decoding throws).  Changes nothing. */
    method LoadAudioFile(file: AudioFile, decoded: Option<AudioBuffer>) returns (r: Option<AudioBuffer>)
      ensures r.Some? <==> context.Some? && AcceptsUpload(file) && decoded.Some? && Playable(decoded.value)
      ensures r.Some? ==> r == decoded
      ensures !(context.Some? && AcceptsUpload(file)) ==> r.None?
    {
      if context.None? {
        return None;
      }
      if !(AudioMimePrefix <= file.mimeType) {
        return None;
      }
      if file.size > MaxFileSize {
        return None;
      }
      if decoded.None? {
        return None;
      }
      if decoded.value.duration > 0.0 && decoded.value.numberOfChannels > 0 {
        return decoded;
      }
      r := None;
    }

    method Play(padId: string, audioBuffer: Option<AudioBuffer>, volume: real, now: real, startThrows: bool)
      returns (ok: bool)
      requires Valid()
      modifies this
      ensures Valid()
      ensures (State(), ok) == PlayStep(old(State()), padId, audioBuffer, volume, now, startThrows)
    {
      if context.None? || masterGain.None? || audioBuffer.None? {
        return false;
      }
      // The result of stopping the previous voice is discarded.
      var _ := Stop(padId, false);
      ghost var cleared := State();
      assert cleared == StopStep(old(State()), padId, false).0;
      var source := nextSource;
      nextSource := nextSource + 1;
      activeSources := activeSources[padId := Voice(source, audioBuffer.value, Clamp01(volume), now)];
      ok := !startThrows;
      assert State() == cleared.(voices := cleared.voices[padId := Voice(source, audioBuffer.value, Clamp01(volume), now)],
                                 nextSource := cleared.nextSource + 1);
      assert (State(), ok) == PlayStep(old(State()), padId, audioBuffer, volume, now, startThrows);
    }

    method Stop(padId: string, stopThrows: bool) returns (ok: bool)
      requires Valid()
      modifies this
      ensures Valid()
      ensures (State(), ok) == StopStep(old(State()), padId, stopThrows)
    {
      if padId in activeSources {
        stopCalled := stopCalled + {activeSources[padId].source};
        activeSources := activeSources - {padId};
        return !stopThrows;
      }
      ok := false;
    }

    method StopAll()
      requires Valid()
      modifies this
      ensures Valid()
      ensures State() == StopAllStep(old(State()))
    {
      ghost var done: set<string> := {};
      var pending := activeSources.Keys;
      while pending != {}
        invariant done <= activeSources.Keys && pending == activeSources.Keys - done
        invariant activeSources == old(activeSources) && context == old(context)
        invariant masterGain == old(masterGain) && isInitialized == old(isInitialized)
        invariant nextSource == old(nextSource)
        invariant stopCalled == old(stopCalled) + SourcesAt(activeSources, done)
        decreases pending
      {
        var padId :| padId in pending;
        SourcesAtAdd(activeSources, done, padId);
        stopCalled := stopCalled + {activeSources[padId].source};
        pending := pending - {padId};
        done := done + {padId};
      }
      assert done == activeSources.Keys;
      activeSources := map[];
    }

    method SetMasterVolume(volume: real)
      requires Valid()
      modifies this
      ensures Valid()
      ensures State() == SetVolumeStep(old(State()), volume)
    {
      if masterGain.Some? {
        masterGain := Some(Clamp01(volume));
      }
    }

    method IsPlaying(padId: string) returns (r: bool)
      ensures r <==> padId in activeSources
    {
      r := padId in activeSources;
    }

    method Dispose()
      requires Valid()
      modifies this
      ensures Valid()
      ensures State() == DisposeStep(old(State()))
    {
      StopAll();
      if context.Some? {
        context := None;
      }
      masterGain := None;
      isInitialized := false;
    }

    /** `getStatus`: a snapshot; it changes nothing. */
    method GetStatus() returns (r: Status)
      ensures r.initialized == isInitialized
      ensures r.playing == |activeSources|
      ensures r.state == StatusText(context)
    {
      r := Status(isInitialized, |activeSources|, StatusText(context));
    }

    /** The `onended` event of source node `source`, whose handler was
        registered for `padId`, with the guard of `EndedStep`. */
    method OnEnded(padId: string, source: nat)
      requires Valid()
      modifies this
      ensures Valid()
      ensures State() == EndedStep(old(State()), padId, source)
    {
      if padId in activeSources && activeSources[padId].source == source {
        activeSources := activeSources - {padId};
      }
    }
  }
}

=== FILE: backup_system.dfy ===
/** The working-version backups of src/services/backupSystem.ts.

    The backups live as one JSON list under a single localStorage key, newest
    first, at most five of them.  The key's content is `Slot`: absent, a
    list that parses, or text that does not parse.  The host clock and its
    locale date formatting are parameters, and so is the failure of
    `localStorage.setItem` (a full quota). */
module Backups {
  import opened Common

  /** How many backups a save keeps. */
  const MaxBackups: nat := 5

  /** The text a backup's label starts with, before the formatted date. */
  const LabelPrefix: string := "Backup "

  /** One backup; `title` is the entry's `label`. */
  datatype Backup = Backup(version: string, timestamp: int, title: string)

  /** What the storage key holds. */
  datatype Slot = Empty | Holds(entries: seq<Backup>) | Unparsable

  /** The list `getBackups` reads from a slot: nothing stored and text that
      does not parse both read as the empty list. */
  function Listed(slot: Slot): (r: seq<Backup>)
    ensures r == [] <==> !slot.Holds? || slot.entries == []
  {
    if slot.Holds? then slot.entries else []
  }

  /** The list after putting `e` in front and, when that makes it longer than
      `MaxBackups`, dropping the last entry. */
  function Pushed(l: seq<Backup>, e: Backup): (r: seq<Backup>)
    ensures |r| == if |l| < MaxBackups then |l| + 1 else |l|
    ensures r[0] == e
    ensures r[1..] == l[..|r| - 1]
  {
    var r := [e] + l;
    if |r| > MaxBackups then r[..|r| - 1] else r
  }

  /** A list within the bound stays within it. */
  lemma PushedBounded(l: seq<Backup>, e: Backup)
    requires |l| <= MaxBackups
    ensures |Pushed(l, e)| <= MaxBackups
    ensures |l| == MaxBackups ==> Pushed(l, e) == [e] + l[..MaxBackups - 1]
  {
    var r := Pushed(l, e);
    if |l| == MaxBackups {
      assert r == [r[0]] + r[1..];
    }
  }

  /** `restoreBackup(index)`: the version at `index`, or null. */
  function Restore(l: seq<Backup>, index: int): (r: Option<string>)
    ensures r.Some? <==> 0 <= index < |l|
    ensures r.Some? ==> r.value == l[index].version
  {
    if 0 <= index < |l| then Some(l[index].version) else None
  }

  /** Right after a save, backup 0 restores the saved version and backup `i`
      restores what backup `i - 1` restored before. */
  lemma RestoreAfterSave(l: seq<Backup>, e: Backup, i: int)
    ensures Restore(Pushed(l, e), 0) == Some(e.version)
    ensures 0 < i < |Pushed(l, e)| ==> Restore(Pushed(l, e), i) == Restore(l, i - 1)
  {
    var r := Pushed(l, e);
    if 0 < i < |r| {
      assert r[i] == r[1..][i - 1];
    }
  }

  /** Saving the entries of `es` one after the other. */
  function SaveAll(l: seq<Backup>, es: seq<Backup>): seq<Backup>
    decreases |es|
  {
    if es == [] then l else Pushed(SaveAll(l, es[..|es| - 1]), es[|es| - 1])
  }

  /** How many of `n` saves the list keeps. */
  function Kept(n: nat): nat {
    if n < MaxBackups then n else MaxBackups
  }

  function Reverse(es: seq<Backup>): (r: seq<Backup>)
    ensures |r| == |es|
    ensures forall i :: 0 <= i < |es| ==> r[i] == es[|es| - 1 - i]
    decreases |es|
  {
    if es == [] then [] else [es[|es| - 1]] + Reverse(es[..|es| - 1])
  }

  /** Starting from no backups, a run of saves leaves the last five saved,
      newest first. */
  lemma {:induction false} SaveAllKeepsNewest(es: seq<Backup>)
    ensures SaveAll([], es) == Reverse(es)[..Kept(|es|)]
    decreases |es|
  {
    if es != [] {
      var init, last := es[..|es| - 1], es[|es| - 1];
      SaveAllKeepsNewest(init);
      var l := SaveAll([], init);
      var k := Kept(|es|);
      assert |l| == Kept(|init|);
      var r := Pushed(l, last);
      assert |r| == k;
      var rev := Reverse(es);
      assert rev == [last] + Reverse(init);
      assert r == [r[0]] + r[1..];
      assert rev[..k] == [last] + Reverse(init)[..k - 1];
    }
  }

  class BackupSystem {
    var slot: Slot

    /** What an earlier session left under the key. */
    constructor(slot0: Slot)
      ensures slot == slot0
    {
      slot := slot0;
    }

    method GetBackups() returns (r: seq<Backup>)
      ensures slot.Holds? ==> r == slot.entries
      ensures !slot.Holds? ==> r == []
    {
      match slot
      case Holds(entries) => r := entries;
      case _ => r := [];
    }

    /** `saveWorkingVersion(version, timestamp)`, where `dateText` is the
        host's locale rendering of `timestamp` and `setItemFails` says that
        the write to localStorage throws, which the method catches. */
    method SaveWorkingVersion(version: string, timestamp: int, dateText: string, setItemFails: bool)
      modifies this
      ensures setItemFails ==> slot == old(slot)
      ensures !setItemFails ==>
                slot == Holds(Pushed(Listed(old(slot)), Backup(version, timestamp, LabelPrefix + dateText)))
      ensures |Listed(old(slot))| <= MaxBackups ==> |Listed(slot)| <= MaxBackups
    {
      var backups := GetBackups();
      backups := [Backup(version, timestamp, LabelPrefix + dateText)] + backups;
      if |backups| > MaxBackups {
        backups := backups[..|backups| - 1];
      }
      if !setItemFails {
        slot := Holds(backups);
      }
      if |Listed(old(slot))| <= MaxBackups {
        PushedBounded(Listed(old(slot)), Backup(version, timestamp, LabelPrefix + dateText));
      }
    }

    method RestoreBackup(index: int) returns (r: Option<string>)
      ensures r.Some? <==> 0 <= index < |Listed(slot)|
      ensures r.Some? ==> r.value == Listed(slot)[index].version
      ensures r == Restore(Listed(slot), index)
    {
      var backups := GetBackups();
      if 0 <= index < |backups| {
        return Some(backups[index].version);
      }
      r := None;
    }

    method ClearBackups()
      modifies this
      ensures slot == Empty && Listed(slot) == []
    {
      slot := Empty;
    }
  }
}

=== FILE: base64.dfy ===
/** The byte/text conversion that StorageService.ts uses for bank transfer.

    Export passes the stored bytes through `btoa`, which is the base64 encoding
    of section 4 of RFC 4648 (the standard alphabet, `=` padding).  Import
    passes the text through `atob`, which runs the "forgiving-base64 decode" of
    the WHATWG Infra standard: ASCII whitespace is dropped, one or two trailing
    `=` are removed when the length is a multiple of four, a length of 1 modulo
    4 or a character outside the alphabet is an error (`atob` throws), and the
    bits left over in a final partial group are discarded. */
module Base64 {
  import opened Common

  type Byte = b: int | 0 <= b < 256

  /** The value of one base64 character. */
  type Sextet = v: int | 0 <= v < 64

  const PadChar: char := '='

  /** The 64 characters of the alphabet of table 1 of RFC 4648. */
  predicate IsAlphabetChar(c: char) {
    ('A' <= c <= 'Z') || ('a' <= c <= 'z') || ('0' <= c <= '9') || c == '+' || c == '/'
  }

  /** ASCII whitespace as the Infra standard defines it: tab, line feed, form
      feed, carriage return and space. */
  predicate IsAsciiWhitespace(c: char) {
    c == ' ' || c == '\t' || c == '\n' || c == '\r' || c as int == 12
  }

  predicate AllAlphabet(t: string) {
    forall i :: 0 <= i < |t| ==> IsAlphabetChar(t[i])
  }

  /** The value of an alphabet character. */
  function ValueOf(c: char): (v: Sextet)
    requires IsAlphabetChar(c)
  {
    if 'A' <= c <= 'Z' then c as int - 'A' as int
    else if 'a' <= c <= 'z' then c as int - 'a' as int + 26
    else if '0' <= c <= '9' then c as int - '0' as int + 52
    else if c == '+' then 62
    else 63
  }

  /** The character that encodes a value: the inverse of `ValueOf`. */
  function CharOf(v: Sextet): (c: char)
    ensures IsAlphabetChar(c)
    ensures ValueOf(c) == v
  {
    if v < 26 then ('A' as int + v) as char
    else if v < 52 then ('a' as int + (v - 26)) as char
    else if v < 62 then ('0' as int + (v - 52)) as char
    else if v == 62 then '+'
    else '/'
  }

  /** Number of alphabet characters that encode `n` bytes, before padding. */
  function UnpaddedLength(n: nat): nat {
    n / 3 * 4 + (if n % 3 == 0 then 0 else n % 3 + 1)
  }

  /** The four characters of a group of three bytes. */
  function EncodeGroup(a: Byte, b: Byte, c: Byte): (r: string)
    ensures |r| == 4 && AllAlphabet(r)
  {
    [CharOf(a / 4), CharOf(a % 4 * 16 + b / 16), CharOf(b % 16 * 4 + c / 64), CharOf(c % 64)]
  }

  /** The two or three characters of a final group of one or two bytes. */
  function EncodeTail(s: seq<Byte>): (r: string)
    requires 1 <= |s| <= 2
    ensures |r| == |s| + 1 && AllAlphabet(r)
  {
    if |s| == 1 then [CharOf(s[0] / 4), CharOf(s[0] % 4 * 16)]
    else [CharOf(s[0] / 4), CharOf(s[0] % 4 * 16 + s[1] / 16), CharOf(s[1] % 16 * 4)]
  }

  /** Base64 without padding: each group of three bytes becomes four
      characters, a final group of one or two bytes becomes two or three. */
  function EncodeUnpadded(s: seq<Byte>): (r: string)
    ensures |r| == UnpaddedLength(|s|)
    ensures AllAlphabet(r)
    decreases |s|
  {
    if |s| == 0 then []
    else if |s| <= 2 then EncodeTail(s)
    else EncodeGroup(s[0], s[1], s[2]) + EncodeUnpadded(s[3..])
  }

  /** The `=` characters that complete the last group of four. */
  function Padding(n: nat): string {
    if n % 3 == 1 then [PadChar, PadChar] else if n % 3 == 2 then [PadChar] else []
  }

  /** `btoa` of the byte string: padded base64. */
  function Encode(s: seq<Byte>): (r: string)
    ensures |r| == (|s| + 2) / 3 * 4
    ensures forall i :: 0 <= i < |r| ==> IsAlphabetChar(r[i]) || r[i] == PadChar
  {
    var e := EncodeUnpadded(s);
    assert forall i :: 0 <= i < |e| ==> IsAlphabetChar(e[i]);
    e + Padding(|s|)
  }

  /** The first step of `atob`: drop every ASCII whitespace character and
      keep the others. */
  function StripWhitespace(t: string): (r: string)
    ensures forall i :: 0 <= i < |r| ==> !IsAsciiWhitespace(r[i])
    ensures (forall i :: 0 <= i < |t| ==> !IsAsciiWhitespace(t[i])) ==> r == t
    ensures |r| <= |t|
    decreases |t|
  {
    if t == [] then []
    else (if IsAsciiWhitespace(t[0]) then [] else [t[0]]) + StripWhitespace(t[1..])
  }

  /** When the length is a multiple of four, drop one or two trailing `=`. */
  function StripPadding(u: string): (r: string)
    ensures |r| <= |u|
  {
    if |u| % 4 == 0 && |u| >= 2 && u[|u| - 2] == PadChar && u[|u| - 1] == PadChar then u[..|u| - 2]
    else if |u| % 4 == 0 && |u| >= 1 && u[|u| - 1] == PadChar then u[..|u| - 1]
    else u
  }

  /** The three bytes of a group of four characters. */
  function DecodeGroup(v: string): (r: seq<Byte>)
    requires |v| == 4 && AllAlphabet(v)
    ensures |r| == 3
  {
    [ValueOf(v[0]) * 4 + ValueOf(v[1]) / 16,
     ValueOf(v[1]) % 16 * 16 + ValueOf(v[2]) / 4,
     ValueOf(v[2]) % 4 * 64 + ValueOf(v[3])]
  }

  /** The one or two bytes of a final group of two or three characters; the
      leftover low bits of its last character are discarded. */
  function DecodeTail(v: string): (r: seq<Byte>)
    requires 2 <= |v| <= 3 && AllAlphabet(v)
    ensures |r| == |v| - 1
  {
    if |v| == 2 then [ValueOf(v[0]) * 4 + ValueOf(v[1]) / 16]
    else [ValueOf(v[0]) * 4 + ValueOf(v[1]) / 16, ValueOf(v[1]) % 16 * 16 + ValueOf(v[2]) / 4]
  }

  /** Decodes alphabet characters, four to three bytes, then the final
      partial group. */
  function DecodeUnpadded(v: string): (r: seq<Byte>)
    requires AllAlphabet(v) && |v| % 4 != 1
    ensures 4 * |r| <= 3 * |v|
    decreases |v|
  {
    if |v| == 0 then []
    else if |v| <= 3 then DecodeTail(v)
    else DecodeGroup(v[..4]) + DecodeUnpadded(v[4..])
  }

  /** Characters `atob` can accept: the alphabet, ASCII whitespace and `=`. */
  predicate OnlyBase64Chars(t: string) {
    forall i :: 0 <= i < |t| ==> IsAlphabetChar(t[i]) || IsAsciiWhitespace(t[i]) || t[i] == PadChar
  }

  /** `atob`: None where `atob` throws.  Every four characters of text give
      at most three bytes. */
  function Decode(t: string): (r: Option<seq<Byte>>)
    ensures r.Some? ==> 4 * |r.value| <= 3 * |t|
  {
    var v := StripPadding(StripWhitespace(t));
    if |v| % 4 == 1 || !AllAlphabet(v) then None else Some(DecodeUnpadded(v))
  }

  /** A text `atob` accepts consists of alphabet characters, ASCII whitespace
      and `=` only: any other character makes it throw. */
  lemma DecodeAcceptsOnly(t: string)
    ensures Decode(t).Some? ==> OnlyBase64Chars(t)
  {
    var u := StripWhitespace(t);
    if Decode(t).Some? {
      AcceptedChars(t, u);
    }
  }

  /** Every character that survives both stripping steps must be in the
      alphabet, so any other character of the text is whitespace or `=`. */
  lemma AcceptedChars(t: string, u: string)
    requires u == StripWhitespace(t) && AllAlphabet(StripPadding(u))
    ensures OnlyBase64Chars(t)
  {
    StripWhitespaceMembers(t);
    forall i | 0 <= i < |t| && !IsAsciiWhitespace(t[i]) && t[i] != PadChar
      ensures IsAlphabetChar(t[i])
    {
      assert t[i] in t;
      PaddingKeeps(u, t[i]);
    }
  }

  /** The padding step keeps a prefix and drops only `=` characters. */
  lemma StripPaddingPrefix(u: string)
    ensures StripPadding(u) == u[..|StripPadding(u)|]
    ensures forall k :: |StripPadding(u)| <= k < |u| ==> u[k] == PadChar
  {
  }

  /** Stripping whitespace keeps exactly the other characters. */
  lemma {:induction false} StripWhitespaceMembers(t: string)
    ensures forall c :: c in StripWhitespace(t) <==> c in t && !IsAsciiWhitespace(c)
    decreases |t|
  {
    if t != [] {
      StripWhitespaceMembers(t[1..]);
      assert t == [t[0]] + t[1..];
    }
  }

  /** A character other than `=` survives the padding step. */
  lemma PaddingKeeps(u: string, c: char)
    requires AllAlphabet(StripPadding(u)) && c in u && c != PadChar
    ensures IsAlphabetChar(c)
  {
    StripPaddingPrefix(u);
    var v := StripPadding(u);
    var j :| 0 <= j < |u| && u[j] == c;
    assert j < |v|;
    assert v[j] == c;
  }

  /** Whitespace splits: stripping a concatenation strips each part, so the
      order of the kept characters is the order in the text. */
  lemma {:induction false} StripWhitespaceAppend(a: string, b: string)
    ensures StripWhitespace(a + b) == StripWhitespace(a) + StripWhitespace(b)
    decreases |a|
  {
    if a == [] {
      assert a + b == b;
    } else {
      assert (a + b)[1..] == a[1..] + b;
      StripWhitespaceAppend(a[1..], b);
    }
  }

  /** A whitespace character anywhere in the text (a line break in an
      imported bank, say) does not change what `atob` returns. */
  lemma DecodeIgnoresWhitespace(a: string, w: char, b: string)
    requires IsAsciiWhitespace(w)
    ensures Decode(a + [w] + b) == Decode(a + b)
  {
    StripWhitespaceAppend(a + [w], b);
    StripWhitespaceAppend(a, [w]);
    StripWhitespaceAppend(a, b);
    assert StripWhitespace([w]) == [];
    assert StripWhitespace(a + [w]) == StripWhitespace(a);
  }

  /** A full group decodes to the three bytes it encodes. */
  lemma GroupRoundTrip(a: Byte, b: Byte, c: Byte)
    ensures DecodeGroup(EncodeGroup(a, b, c)) == [a, b, c]
  {
    var v0, v1, v2, v3 := a / 4, a % 4 * 16 + b / 16, b % 16 * 4 + c / 64, c % 64;
    var g := EncodeGroup(a, b, c);
    assert ValueOf(g[0]) == v0 && ValueOf(g[1]) == v1 && ValueOf(g[2]) == v2 && ValueOf(g[3]) == v3;
    Join16(a % 4, b / 16);
    Join4(b % 16, c / 64);
    assert v0 * 4 + v1 / 16 == a;
    assert v1 % 16 * 16 + v2 / 4 == b;
    assert v2 % 4 * 64 + v3 == c;
  }

  /** Splitting `hi * 16 + lo` at 16 gives back `hi` and `lo`. */
  lemma Join16(hi: nat, lo: nat)
    requires lo < 16
    ensures (hi * 16 + lo) / 16 == hi && (hi * 16 + lo) % 16 == lo
  {
  }

  /** Splitting `hi * 4 + lo` at 4 gives back `hi` and `lo`. */
  lemma Join4(hi: nat, lo: nat)
    requires lo < 4
    ensures (hi * 4 + lo) / 4 == hi && (hi * 4 + lo) % 4 == lo
  {
  }

  /** A final partial group decodes to the one or two bytes it encodes. */
  lemma TailRoundTrip(s: seq<Byte>)
    requires 1 <= |s| <= 2
    ensures DecodeTail(EncodeTail(s)) == s
  {
    if |s| == 1 {
      assert (s[0] % 4 * 16) / 16 == s[0] % 4;
    } else {
      assert (s[0] % 4 * 16 + s[1] / 16) / 16 == s[0] % 4;
      assert (s[0] % 4 * 16 + s[1] / 16) % 16 == s[1] / 16;
      assert (s[1] % 16 * 4) / 4 == s[1] % 16;
    }
  }

  /** No number of bytes encodes to a length of 1 modulo 4. */
  lemma UnpaddedLengthMod(n: nat)
    ensures UnpaddedLength(n) % 4 != 1
  {
  }

  /** Decoding a full group followed by more characters. */
  lemma DecodeAfterGroup(g: string, rest: string)
    requires |g| == 4 && AllAlphabet(g) && AllAlphabet(rest) && |rest| % 4 != 1
    ensures AllAlphabet(g + rest) && |g + rest| % 4 != 1
    ensures DecodeUnpadded(g + rest) == DecodeGroup(g) + DecodeUnpadded(rest)
  {
    var e := g + rest;
    assert e[..4] == g && e[4..] == rest;
  }

  /** Encoding then decoding at least three bytes handles the first three and
      then the rest. */
  lemma RoundTripStep(s: seq<Byte>)
    requires |s| >= 3
    ensures |EncodeUnpadded(s)| % 4 != 1 && |EncodeUnpadded(s[3..])| % 4 != 1
    ensures DecodeUnpadded(EncodeUnpadded(s)) == s[..3] + DecodeUnpadded(EncodeUnpadded(s[3..]))
  {
    UnpaddedLengthMod(|s|);
    UnpaddedLengthMod(|s| - 3);
    var g, rest := EncodeGroup(s[0], s[1], s[2]), EncodeUnpadded(s[3..]);
    assert EncodeUnpadded(s) == g + rest;
    DecodeAfterGroup(g, rest);
    GroupRoundTrip(s[0], s[1], s[2]);
    assert DecodeGroup(g) == s[..3];
  }

  /** Decoding the unpadded characters gives back the bytes. */
  lemma {:induction false} UnpaddedRoundTrip(s: seq<Byte>)
    ensures |EncodeUnpadded(s)| % 4 != 1
    ensures DecodeUnpadded(EncodeUnpadded(s)) == s
    decreases |s|
  {
    UnpaddedLengthMod(|s|);
    if |s| == 0 {
    } else if |s| <= 2 {
      TailRoundTrip(s);
    } else {
      RoundTripStep(s);
      UnpaddedRoundTrip(s[3..]);
      assert s == s[..3] + s[3..];
    }
  }

  /** Removing the padding after `n` bytes' worth of alphabet characters
      leaves those characters. */
  lemma StripPaddingAfter(e: string, n: nat)
    requires AllAlphabet(e) && |e| == UnpaddedLength(n)
    ensures StripPadding(e + Padding(n)) == e
  {
    var t := e + Padding(n);
    if n % 3 == 1 {
      assert t[..|t| - 2] == e;
    } else if n % 3 == 2 {
      assert t[|t| - 2] == e[|e| - 1];
      assert t[..|t| - 1] == e;
    } else {
      assert t == e;
      assert |e| >= 1 ==> IsAlphabetChar(e[|e| - 1]);
    }
  }

  /** `atob(btoa(s))` is `s`: importing what was exported restores the bytes. */
  lemma DecodeEncode(s: seq<Byte>)
    ensures Decode(Encode(s)) == Some(s)
  {
    var t := Encode(s);
    StripPaddingAfter(EncodeUnpadded(s), |s|);
    UnpaddedRoundTrip(s);
  }

  /** Different byte strings export to different texts. */
  lemma EncodeInjective(s: seq<Byte>, s': seq<Byte>)
    requires Encode(s) == Encode(s')
    ensures s == s'
  {
    DecodeEncode(s);
    DecodeEncode(s');
  }
}

=== FILE: common.dfy ===
/** Values shared by the two playback engines and the persistence layer:
    an optional value, the Math.max/Math.min clamp used for gains, and the
    parts of the host's Web Audio objects that the engines look at. */
module Common {

  /** JavaScript's `T | null`. */
  datatype Option<T> = None | Some(value: T) {
    function GetOr(default: T): T {
      if Some? then value else default
    }
  }

  function Min(a: real, b: real): real { if a <= b then a else b }

  function Max(a: real, b: real): real { if a >= b then a else b }

  /** `Math.max(lo, Math.min(hi, v))`. */
  function Clamp(v: real, lo: real, hi: real): (r: real)
    requires lo <= hi
    ensures lo <= r <= hi
    ensures lo <= v <= hi ==> r == v
    ensures v < lo ==> r == lo
    ensures hi < v ==> r == hi
  {
    Max(lo, Min(hi, v))
  }

  /** The clamp both gain stages of the newer engine apply: into [0, 1]. */
  function Clamp01(v: real): (r: real)
    ensures 0.0 <= r <= 1.0
    ensures 0.0 <= v <= 1.0 ==> r == v
  {
    Clamp(v, 0.0, 1.0)
  }

  /** `AudioContext.state` as the host reports it. */
  datatype ContextState = Suspended | Running | Closed

  /** The text the host gives for a context state. */
  function StateName(s: ContextState): string {
    match s
    case Suspended => "suspended"
    case Running => "running"
    case Closed => "closed"
  }

  /** The fields of a decoded `AudioBuffer` that the engines inspect. */
  datatype AudioBuffer = AudioBuffer(duration: real, numberOfChannels: int, sampleRate: real)
}

=== FILE: storage_service.dfy ===
/** The persistence service of src/services/StorageService.ts.

    The IndexedDB database becomes three in-memory tables: `samples`, keyed by
    pad id (the store's key path), and the `settings` and `banks` tables, whose
    contents no operation but `clearAll` looks at.  A sample record holds the
    raw bytes of the uploaded file.  Bank export and import go through base64
    (module Base64); the JSON text of a bank is replaced by its structure,
    `BankDocument`, and the host clock by a timestamp parameter. */
module Storage {
  import opened Common
  import opened Base64

  /** The one bank format version this code writes and accepts. */
  const BankVersion: string := "2.0.0"

  /** A record of the `samples` table; `name` is the record's `label`. */
  datatype StoredSample = StoredSample(padId: string, name: string, audioData: seq<Byte>,
                                       savedAt: string, size: Option<nat>)

  /** What `loadSample` and `loadAllSamples` hand back for a record. */
  datatype SampleData = SampleData(name: string, audioData: seq<Byte>)

  /** One entry of an exported bank: the bytes as base64 text. */
  datatype BankSample = BankSample(padId: string, name: string, audioData: string)

  datatype BankDocument = BankDocument(version: string, exportDate: string, samples: seq<BankSample>)

  /** How `importBank` ends: normally, by throwing on the version check before
      writing anything, or by throwing when `atob` rejects entry `index`, after
      the entries before it were written. */
  datatype ImportOutcome = Imported | IncompatibleVersion | CorruptEntry(index: nat)

  /** Every record is stored under its own pad id. */
  ghost predicate Keyed(m: map<string, StoredSample>) {
    forall k :: k in m ==> m[k].padId == k
  }

  /** The `samples` table after `saveSample(padId, label, data)` at time
      `now`: an upsert by pad id. */
  function Put(m: map<string, StoredSample>, padId: string, name: string, data: seq<Byte>, now: string)
    : (r: map<string, StoredSample>)
    ensures padId in r
  {
    m[padId := StoredSample(padId, name, data, now, Some(|data|))]
  }

  /** After a save the pad's record holds the pad id, label, bytes, time and
      byte length, every other record is unchanged, and records stay keyed
      by their pad id. */
  lemma PutSaves(m: map<string, StoredSample>, padId: string, name: string, data: seq<Byte>, now: string)
    ensures var r := Put(m, padId, name, data, now);
            && padId in r && r[padId].padId == padId && r[padId].savedAt == now
            && r[padId].name == name && r[padId].audioData == data && r[padId].size == Some(|data|)
            && (forall q :: q != padId ==> (q in r <==> q in m) && (q in m ==> r[q] == m[q]))
            && (Keyed(m) ==> Keyed(r))
  {}

  function DataOf(rec: StoredSample): SampleData {
    SampleData(rec.name, rec.audioData)
  }

  function DataMap(m: map<string, StoredSample>): map<string, SampleData> {
    map p | p in m :: DataOf(m[p])
  }

  /** `item.size || 0`. */
  function SizeOf(rec: StoredSample): nat {
    rec.size.GetOr(0)
  }

  /** The sum of the sizes of the records of `m`, a missing size counting 0. */
  ghost function TotalSize(m: map<string, StoredSample>): (r: nat)
    ensures forall k :: k in m ==> SizeOf(m[k]) <= r
    decreases |m.Keys|
  {
    if m == map[] then 0
    else
      var k :| k in m;
      assert |(m - {k}).Keys| < |m.Keys| by { assert (m - {k}).Keys == m.Keys - {k}; }
      assert forall q :: q in m && q != k ==> q in m - {k} && (m - {k})[q] == m[q];
      SizeOf(m[k]) + TotalSize(m - {k})
  }

  /** The sum can be taken starting from any record. */
  lemma {:induction false} TotalSizeRemove(m: map<string, StoredSample>, k: string)
    requires k in m
    ensures TotalSize(m) == SizeOf(m[k]) + TotalSize(m - {k})
    decreases |m.Keys|
  {
    var j :| j in m && TotalSize(m) == SizeOf(m[j]) + TotalSize(m - {j});
    if j != k {
      assert (m - {j}).Keys == m.Keys - {j};
      assert (m - {k}).Keys == m.Keys - {k};
      TotalSizeRemove(m - {j}, k);
      TotalSizeRemove(m - {k}, j);
      assert m - {j} - {k} == m - {k} - {j};
    }
  }

  /** The bank entry `exportBank` writes for a pad: its id, its label, and
      a text that `atob` turns back into its bytes. */
  function ExportEntry(padId: string, d: SampleData): (r: BankSample)
    ensures r.padId == padId && r.name == d.name
    ensures |r.audioData| == (|d.audioData| + 2) / 3 * 4
  {
    BankSample(padId, d.name, Encode(d.audioData))
  }

  /** `es` lists every sample of `all` exactly once, each as `ExportEntry`. */
  ghost predicate IsExportOf(es: seq<BankSample>, all: map<string, SampleData>) {
    && (forall i :: 0 <= i < |es| ==> es[i].padId in all && es[i] == ExportEntry(es[i].padId, all[es[i].padId]))
    && (forall p :: p in all ==> exists i :: 0 <= i < |es| && es[i].padId == p)
    && (forall i, j :: 0 <= i < j < |es| ==> es[i].padId != es[j].padId)
  }

  /** The state of the export loop: `es` holds one entry for each pad of
      `all` outside `pending`, and `at` says where it is. */
  ghost predicate ExportedSoFar(es: seq<BankSample>, all: map<string, SampleData>, pending: set<string>,
                                at: map<string, nat>) {
    && pending <= all.Keys
    && (forall i :: 0 <= i < |es| ==>
          es[i].padId in all && es[i].padId !in pending && es[i] == ExportEntry(es[i].padId, all[es[i].padId]))
    && (forall p :: p in all && p !in pending ==> p in at && at[p] < |es| && es[at[p]].padId == p)
    && (forall i, j :: 0 <= i < j < |es| ==> es[i].padId != es[j].padId)
  }

  /** Exporting one more pending pad keeps the loop state. */
  lemma ExportStep(es: seq<BankSample>, all: map<string, SampleData>, pending: set<string>,
                   at: map<string, nat>, p: string)
    requires ExportedSoFar(es, all, pending, at) && p in pending
    ensures ExportedSoFar(es + [ExportEntry(p, all[p])], all, pending - {p}, at[p := |es|])
  {
    var es' := es + [ExportEntry(p, all[p])];
    assert forall i :: 0 <= i < |es| ==> es'[i] == es[i];
  }

  /** With nothing pending, the entries are an export of `all`. */
  lemma ExportDone(es: seq<BankSample>, all: map<string, SampleData>, at: map<string, nat>)
    requires ExportedSoFar(es, all, {}, at)
    ensures IsExportOf(es, all)
  {
    forall p | p in all
      ensures exists i :: 0 <= i < |es| && es[i].padId == p
    {
      assert es[at[p]].padId == p;
    }
  }

  /** `atob` accepts the text of each of the first `n` entries. */
  ghost predicate DecodesUpTo(es: seq<BankSample>, n: nat) {
    n <= |es| && forall j :: 0 <= j < n ==> Decode(es[j].audioData).Some?
  }

  /** The index of the first entry at or after `i` whose text `atob`
      rejects, or `|es|` when there is none. */
  function FirstCorruptFrom(es: seq<BankSample>, i: nat): (n: nat)
    requires i <= |es|
    ensures i <= n <= |es|
    ensures forall j :: i <= j < n ==> Decode(es[j].audioData).Some?
    ensures n < |es| ==> Decode(es[n].audioData).None?
    decreases |es| - i
  {
    if i == |es| then i
    else if Decode(es[i].audioData).None? then i
    else FirstCorruptFrom(es, i + 1)
  }

  /** How many entries `importBank` writes before it stops. */
  function FirstCorrupt(es: seq<BankSample>): (n: nat)
    ensures DecodesUpTo(es, n)
    ensures n < |es| ==> Decode(es[n].audioData).None?
  {
    FirstCorruptFrom(es, 0)
  }

  /** The bytes `atob` gives for the texts of the first `n` entries. */
  function DecodedUpTo(es: seq<BankSample>, n: nat): (ds: seq<seq<Byte>>)
    requires DecodesUpTo(es, n)
    ensures |ds| == n
    ensures forall j :: 0 <= j < n ==> Decode(es[j].audioData) == Some(ds[j])
    decreases n
  {
    if n == 0 then [] else DecodedUpTo(es, n - 1) + [Decode(es[n - 1].audioData).value]
  }

  /** The `samples` table after `saveSample` of entry `j` with the bytes
      `ds[j]`, for each `j < n` in order. */
  function SaveDecoded(m: map<string, StoredSample>, es: seq<BankSample>, ds: seq<seq<Byte>>, n: nat, now: string)
    : map<string, StoredSample>
    requires n <= |es| && n <= |ds|
    decreases n
  {
    if n == 0 then m else Put(SaveDecoded(m, es, ds, n - 1, now), es[n - 1].padId, es[n - 1].name, ds[n - 1], now)
  }

  /** The `samples` table after saving the first `n` entries of `es`, in
      order: the table gains exactly their pad ids. */
  function SaveEntries(m: map<string, StoredSample>, es: seq<BankSample>, n: nat, now: string)
    : (r: map<string, StoredSample>)
    requires DecodesUpTo(es, n)
    ensures r.Keys == m.Keys + PadIds(es, n)
  {
    SaveDecodedKeys(m, es, DecodedUpTo(es, n), n, now);
    SaveDecoded(m, es, DecodedUpTo(es, n), n, now)
  }

  /** A pad none of the first `n` entries mentions keeps its record, or its
      absence. */
  lemma {:induction false} SaveDecodedUntouched(m: map<string, StoredSample>, es: seq<BankSample>,
                                                ds: seq<seq<Byte>>, n: nat, now: string, p: string)
    requires n <= |es| && n <= |ds|
    requires forall j :: 0 <= j < n ==> es[j].padId != p
    ensures var r := SaveDecoded(m, es, ds, n, now); (p in r <==> p in m) && (p in m ==> r[p] == m[p])
    decreases n
  {
    if n > 0 {
      SaveDecodedUntouched(m, es, ds, n - 1, now, p);
    }
  }

  /** The last of the first `n` entries for a pad decides its record: a later
      duplicate pad id overwrites an earlier one. */
  lemma {:induction false} SaveDecodedLastWins(m: map<string, StoredSample>, es: seq<BankSample>,
                                               ds: seq<seq<Byte>>, n: nat, now: string, j: nat)
    requires n <= |es| && n <= |ds| && j < n
    requires forall k :: j < k < n ==> es[k].padId != es[j].padId
    ensures var r := SaveDecoded(m, es, ds, n, now);
            && es[j].padId in r
            && r[es[j].padId] == StoredSample(es[j].padId, es[j].name, ds[j], now, Some(|ds[j]|))
    decreases n
  {
    if j < n - 1 {
      SaveDecodedLastWins(m, es, ds, n - 1, now, j);
    }
  }

  /** The pad ids the first `n` entries of `es` name. */
  function PadIds(es: seq<BankSample>, n: nat): set<string>
    requires n <= |es|
    decreases n
  {
    if n == 0 then {} else PadIds(es, n - 1) + {es[n - 1].padId}
  }

  lemma {:induction false} PadIdsMembers(es: seq<BankSample>, n: nat)
    requires n <= |es|
    ensures forall j :: 0 <= j < n ==> es[j].padId in PadIds(es, n)
    ensures forall p :: p in PadIds(es, n) ==> exists j :: 0 <= j < n && es[j].padId == p
    decreases n
  {
    if n > 0 {
      PadIdsMembers(es, n - 1);
      assert es[n - 1].padId in PadIds(es, n);
    }
  }

  /** Saving the first `n` entries writes exactly their pad ids. */
  lemma {:induction false} SaveDecodedKeys(m: map<string, StoredSample>, es: seq<BankSample>,
                                           ds: seq<seq<Byte>>, n: nat, now: string)
    requires n <= |es| && n <= |ds|
    ensures SaveDecoded(m, es, ds, n, now).Keys == m.Keys + PadIds(es, n)
    decreases n
  {
    if n > 0 {
      SaveDecodedKeys(m, es, ds, n - 1, now);
    }
  }

  /** The entries name each pad of `all` once, with its label, in a text
      that decodes to its bytes. */
  ghost predicate RestoresTo(es: seq<BankSample>, all: map<string, SampleData>) {
    && DecodesUpTo(es, |es|)
    && (forall i :: 0 <= i < |es| ==>
          && es[i].padId in all && es[i].name == all[es[i].padId].name
          && Decode(es[i].audioData) == Some(all[es[i].padId].audioData))
    && (forall p :: p in all ==> exists i :: 0 <= i < |es| && es[i].padId == p)
    && (forall i, j :: 0 <= i < j < |es| ==> es[i].padId != es[j].padId)
  }

  /** When every entry decodes, the import runs to the end. */
  lemma NoneCorrupt(es: seq<BankSample>)
    requires DecodesUpTo(es, |es|)
    ensures FirstCorrupt(es) == |es|
  {
  }

  /** `atob` accepts every entry of an export and gives back its bytes. */
  lemma ExportDecodes(all: map<string, SampleData>, es: seq<BankSample>)
    requires IsExportOf(es, all)
    ensures RestoresTo(es, all)
  {
    forall i | 0 <= i < |es|
      ensures Decode(es[i].audioData) == Some(all[es[i].padId].audioData)
    {
      DecodeEncode(all[es[i].padId].audioData);
    }
  }

  /** Importing entries that name each pad of `all` exactly once, each
      decoding to that pad's bytes, restores `all` on top of the table `m`. */
  lemma ImportRestores(all: map<string, SampleData>, es: seq<BankSample>,
                       m: map<string, StoredSample>, now: string)
    requires RestoresTo(es, all)
    ensures forall p :: p in all ==> p in SaveEntries(m, es, |es|, now) && DataOf(SaveEntries(m, es, |es|, now)[p]) == all[p]
    ensures SaveEntries(m, es, |es|, now).Keys == m.Keys + all.Keys
  {
    var ds := DecodedUpTo(es, |es|);
    forall p | p in all
      ensures p in SaveEntries(m, es, |es|, now) && DataOf(SaveEntries(m, es, |es|, now)[p]) == all[p]
    {
      var i :| 0 <= i < |es| && es[i].padId == p;
      SaveDecodedLastWins(m, es, ds, |es|, now, i);
      assert Decode(es[i].audioData) == Some(ds[i]);
    }
    PadIdsMembers(es, |es|);
    assert PadIds(es, |es|) == all.Keys;
  }

  /** Importing an export restores every sample's label and bytes, on top of
      whatever table `m` the import starts from; into an empty table (after
      `clearAll`) it restores exactly the exported pads. */
  lemma ExportImportRoundTrip(all: map<string, SampleData>, es: seq<BankSample>,
                              m: map<string, StoredSample>, now: string)
    requires IsExportOf(es, all)
    ensures FirstCorrupt(es) == |es|
    ensures forall p :: p in all ==> p in SaveEntries(m, es, |es|, now) && DataOf(SaveEntries(m, es, |es|, now)[p]) == all[p]
    ensures SaveEntries(m, es, |es|, now).Keys == m.Keys + all.Keys
  {
    ExportDecodes(all, es);
    NoneCorrupt(es);
    ImportRestores(all, es, m, now);
  }

  /** What `atob` makes of each entry's text, in order. */
  function AtobAll(es: seq<BankSample>): (os: seq<Option<seq<Byte>>>)
    ensures |os| == |es|
    ensures forall j :: 0 <= j < |es| ==> os[j] == Decode(es[j].audioData)
  {
    seq(|es|, j requires 0 <= j < |es| => Decode(es[j].audioData))
  }

  /** The import loop from entry `i` on, over the table `m`, where `os[j]`
      is what `atob` makes of entry `j`: each entry is saved until `atob`
      throws or the entries run out. */
  function ImportFrom(m: map<string, StoredSample>, es: seq<BankSample>, os: seq<Option<seq<Byte>>>,
                      i: nat, now: string): (r: (map<string, StoredSample>, ImportOutcome))
    requires i <= |es| == |os|
    ensures r.1.Imported? || (r.1.CorruptEntry? && i <= r.1.index < |es| && os[r.1.index].None?)
    decreases |es| - i
  {
    if i == |es| then (m, Imported)
    else
      match os[i]
      case None => (m, CorruptEntry(i))
      case Some(data) => ImportFrom(Put(m, es[i].padId, es[i].name, data, now), es, os, i + 1, now)
  }

  /** Started at any entry `i` before the stopping point `n`, with the
      entries before `i` saved, the loop saves every entry before `n`, `ds`
      being what `atob` makes of them, and reports where it stopped. */
  lemma {:induction false} ImportFromStops(m: map<string, StoredSample>, es: seq<BankSample>,
                                           os: seq<Option<seq<Byte>>>, ds: seq<seq<Byte>>,
                                           n: nat, i: nat, now: string)
    requires i <= n <= |es| == |os| && |ds| == n
    requires forall j :: 0 <= j < n ==> os[j] == Some(ds[j])
    requires n < |es| ==> os[n].None?
    ensures ImportFrom(SaveDecoded(m, es, ds, i, now), es, os, i, now)
              == (SaveDecoded(m, es, ds, n, now), if n == |es| then Imported else CorruptEntry(n))
    decreases |es| - i
  {
    if i < n {
      ImportFromStops(m, es, os, ds, n, i + 1, now);
    }
  }

  /** The whole import: it stops at the first entry `atob` rejects, with the
      entries before it saved in order. */
  lemma ImportRuns(m: map<string, StoredSample>, es: seq<BankSample>, now: string)
    ensures var n := FirstCorrupt(es);
            ImportFrom(m, es, AtobAll(es), 0, now)
              == (SaveEntries(m, es, n, now), if n == |es| then Imported else CorruptEntry(n))
  {
    var n := FirstCorrupt(es);
    ImportFromStops(m, es, AtobAll(es), DecodedUpTo(es, n), n, 0, now);
  }

  class StorageService {
    var samples: map<string, StoredSample>
    var settings: map<string, string>
    var banks: map<nat, string>

    ghost predicate Valid()
      reads this
    {
      Keyed(samples)
    }

    /** Opening the database finds the tables of earlier sessions. */
    constructor(samples0: map<string, StoredSample>, settings0: map<string, string>, banks0: map<nat, string>)
      requires Keyed(samples0)
      ensures Valid()
      ensures samples == samples0 && settings == settings0 && banks == banks0
    {
      samples := samples0;
      settings := settings0;
      banks := banks0;
    }

    method SaveSample(padId: string, name: string, audioData: seq<Byte>, now: string)
      requires Valid()
      modifies this
      ensures Valid()
      ensures samples == Put(old(samples), padId, name, audioData, now)
      ensures settings == old(settings) && banks == old(banks)
    {
      samples := samples[padId := StoredSample(padId, name, audioData, now, Some(|audioData|))];
    }

    method LoadSample(padId: string) returns (r: Option<SampleData>)
      ensures r.Some? <==> padId in samples
      ensures r.Some? ==> r.value.name == samples[padId].name && r.value.audioData == samples[padId].audioData
    {
      if padId in samples {
        var rec := samples[padId];
        return Some(SampleData(rec.name, rec.audioData));
      }
      r := None;
    }

    method LoadAllSamples() returns (all: map<string, SampleData>)
      requires Valid()
      ensures all.Keys == samples.Keys
      ensures forall p :: p in all ==> all[p] == DataOf(samples[p])
    {
      all := map[];
      var pending := samples.Keys;
      while pending != {}
        invariant pending <= samples.Keys
        invariant all.Keys == samples.Keys - pending
        invariant forall p :: p in all ==> all[p] == DataOf(samples[p])
        decreases pending
      {
        var key :| key in pending;
        var item := samples[key];
        all := all[item.padId := SampleData(item.name, item.audioData)];
        pending := pending - {key};
      }
    }

    method ClearAll()
      modifies this
      ensures samples == map[] && settings == map[] && banks == map[]
    {
      samples := map[];
      settings := map[];
      banks := map[];
    }

    method GetStorageInfo() returns (count: nat, totalSize: nat)
      ensures count == |samples|
      ensures totalSize == TotalSize(samples)
    {
      count := |samples|;
      totalSize := 0;
      var rest := samples;
      while rest != map[]
        invariant rest.Keys <= samples.Keys
        invariant forall p :: p in rest ==> rest[p] == samples[p]
        invariant totalSize + TotalSize(rest) == TotalSize(samples)
        decreases |rest.Keys|
      {
        var key :| key in rest;
        TotalSizeRemove(rest, key);
        var size := match rest[key].size case Some(n) => n case None => 0;
        totalSize := totalSize + size;
        assert (rest - {key}).Keys == rest.Keys - {key};
        rest := rest - {key};
      }
      assert TotalSize(rest) == 0;
    }

    method ExportBank(now: string) returns (doc: BankDocument)
      requires Valid()
      ensures doc.version == BankVersion && doc.exportDate == now
      ensures IsExportOf(doc.samples, DataMap(samples))
    {
      var all := LoadAllSamples();
      assert all == DataMap(samples);
      var entries: seq<BankSample> := [];
      var pending := all.Keys;
      ghost var at: map<string, nat> := map[];
      while pending != {}
        invariant ExportedSoFar(entries, all, pending, at)
        decreases pending
      {
        var padId :| padId in pending;
        ExportStep(entries, all, pending, at, padId);
        entries := entries + [ExportEntry(padId, all[padId])];
        at := at[padId := |entries| - 1];
        pending := pending - {padId};
      }
      ExportDone(entries, all, at);
      doc := BankDocument(BankVersion, now, entries);
    }

    method ImportBank(doc: BankDocument, now: string) returns (r: ImportOutcome)
      requires Valid()
      modifies this
      ensures Valid()
      ensures doc.version != BankVersion ==> r == IncompatibleVersion && samples == old(samples)
      ensures doc.version == BankVersion ==>
                var n := FirstCorrupt(doc.samples);
                && samples == SaveEntries(old(samples), doc.samples, n, now)
                && r == (if n == |doc.samples| then Imported else CorruptEntry(n))
      ensures settings == old(settings) && banks == old(banks)
    {
      if doc.version != BankVersion {
        return IncompatibleVersion;
      }
      r := ImportEntries(doc.samples, now);
      ImportRuns(old(samples), doc.samples, now);
    }

    /** The loop of `importBank` over the entries of a bank of the right
        version. */
    method ImportEntries(es: seq<BankSample>, now: string) returns (r: ImportOutcome)
      requires Valid()
      modifies this
      ensures Valid()
      ensures (samples, r) == ImportFrom(old(samples), es, AtobAll(es), 0, now)
      ensures settings == old(settings) && banks == old(banks)
    {
      ghost var os := AtobAll(es);
      var i := 0;
      while i < |es|
        invariant i <= |es|
        invariant ImportFrom(samples, es, os, i, now) == ImportFrom(old(samples), es, os, 0, now)
        invariant Valid() && settings == old(settings) && banks == old(banks)
      {
        var sample := es[i];
        var audioData := Decode(sample.audioData);
        assert audioData == os[i];
        if audioData.None? {
          return CorruptEntry(i);
        }
        SaveSample(sample.padId, sample.name, audioData.value, now);
        i := i + 1;
      }
      r := Imported;
    }
  }
}
